=== FILE: README.md ===
# Mirpur Express client: business rules in Dafny

This project models the business rules of the Mirpur Express courier web
client. These are the rules its React screens apply before they call the
server:

- **Booking.** The delivery-charge table, the `MPX-YYYYMMDD-XXXXXX` tracking
  identifier, the region/district/area select options from the
  service-centre table, the booking form's field rules, and the parcel record
  posted once those rules pass and the sender confirms.
- **Rider workflow.** The "Rider assigned" → "In transit" → "Delivery
  Completed" status update and its button label.
- **Rider money.** The per-parcel earning share (80 % within a district,
  30 % across districts), the totals on the completed-deliveries and
  earnings screens, and the cash-out dialog with its minimum (৳100) and
  balance checks.
- **Roles.** The user's role as the dashboard resolves it, the sidebar links
  per role, and the make-admin / revoke-admin screen with its self-protection
  guard and trimmed search.
- **Rider application.** The validation rules of the "Be a Rider" form and
  the record it posts.
- **Lookups and widgets.** The payment-history filters and statistics, the
  tracking screen's status badges and search button, and the home-page
  testimonial carousel.

Each screen is a module. Three modules are shared:

- `Optional` holds `Option`, used for JavaScript's `null`/`undefined`
  fields and `x || fallback`.
- `Seqs` holds filter, sum, de-duplication and subsequences.
- `Text` holds ASCII case mapping, ECMAScript `trim` and `includes`.

Several inputs are parameters:

- the clock reading, as a UTC date-time record;
- the string `Math.random().toString(36)` produced;
- the user's answer to a confirmation dialog;
- the server's reply;
- dayjs' "same day/week/month/year as now" test.

Money and weights are mathematical reals.

## Model

| member | source | states |
|---|---|---|
| Pricing.EffectiveWeight | src/pages/SendParcel/SendParcel.jsx:86 | a missing or non-numeric weight counts as 0 kg, any other weight as itself |
| Pricing.CalculatePrice | src/pages/SendParcel/SendParcel.jsx:85-110 | total = base + extra; within-city iff the two districts are equal; documents cost 60/80 with no extra; other parcels have base 110/150, with no extra up to 3 kg and 40 per kg above 3 kg (+40 outside the city) |
| Pricing.DocumentPriceIgnoresWeight | src/pages/SendParcel/SendParcel.jsx:92-93 | the weight field has no effect on a document's price |
| Pricing.MissingWeightPricedAsLight | src/pages/SendParcel/SendParcel.jsx:86 | a missing weight is priced like any explicit weight of at most 3 kg |
| Pricing.PriceMonotoneInWeight | src/pages/SendParcel/SendParcel.jsx:94-102 | a heavier parcel never costs less |
| Pricing.OutsideCityNeverCheaper | src/pages/SendParcel/SendParcel.jsx:87-102 | with type and weight fixed, an inter-district parcel never costs less than a within-city one |
| Pricing.PriceAtLeastMinimum | src/pages/SendParcel/SendParcel.jsx:92-102 | every parcel costs at least 60 |
| Pricing.PriceExamples | src/pages/SendParcel/SendParcel.jsx:85-110 | the worked cases: 60, 80, 110, 190 = 110 + 80, 270 = 150 + 120, and 3.5 kg gives extra 20 |
| TrackingIds.DigitChar | src/pages/SendParcel/SendParcel.jsx:12 | a digit below 10 is rendered as an ASCII digit |
| TrackingIds.PadDigits | src/pages/SendParcel/SendParcel.jsx:12 | a zero-padded field has exactly the requested width, all digits, and reads back as the value whenever the value has at most that many digits |
| TrackingIds.PadDigitsInjective | src/pages/SendParcel/SendParcel.jsx:12 | two values that fit in the width have equal renderings exactly when they are equal |
| TrackingIds.IsoString | src/pages/SendParcel/SendParcel.jsx:12 | `toISOString` of an instant with a four-digit year has 24 characters |
| TrackingIds.DateDigits | src/pages/SendParcel/SendParcel.jsx:12 | the UTC date is eight ASCII digits |
| TrackingIds.RemoveDashes | src/pages/SendParcel/SendParcel.jsx:12 | the global dash replacement leaves no dash |
| TrackingIds.RemoveDashesAppend | src/pages/SendParcel/SendParcel.jsx:12 | dash removal distributes over concatenation |
| TrackingIds.RemoveDashesOfDigits | src/pages/SendParcel/SendParcel.jsx:12 | dash removal leaves an all-digit string unchanged |
| TrackingIds.Substring | src/pages/SendParcel/SendParcel.jsx:13 | `substring` clamps both indices to the string: at most end − start characters, empty when the start lies beyond the end |
| TrackingIds.GenerateTrackingId | src/pages/SendParcel/SendParcel.jsx:9-15 | the result is `MPX-`, eight digits, `-`, then at most six characters of `[0-9A-Z]`; the digits are the UTC date and the tail is characters 2..8 of the random string, upper-cased |
| TrackingIds.DatePartIsDateDigits | src/pages/SendParcel/SendParcel.jsx:12 | the first ten ISO characters without dashes are exactly `YYYYMMDD` of the UTC date |
| TrackingIds.DifferentDatesDifferentIds | src/pages/SendParcel/SendParcel.jsx:9-15 | identifiers drawn on different UTC calendar days (year, month or day differ) differ, whatever the random strings |
| TrackingIds.DateDigitsInjective | src/pages/SendParcel/SendParcel.jsx:11-12 | two valid instants have the same `YYYYMMDD` segment exactly when they fall on the same UTC year, month and day |
| TrackingIds.ShortRandomSegment | src/pages/SendParcel/SendParcel.jsx:13 | the random string `"0"` gives an empty tail, and `"0.i"` gives the tail `I` |
| Seqs.Dedup | src/pages/SendParcel/SendParcel.jsx:37 | `[...new Set(xs)]`: a subsequence with the same members and no repetitions |
| Seqs.DedupSnoc | src/pages/SendParcel/SendParcel.jsx:37 | first-occurrence order: a value added at the end is appended when new and changes nothing when already present |
| Seqs.DedupKeepsDistinct | src/pages/SendParcel/SendParcel.jsx:37 | a list without repetitions comes back unchanged |
| ServiceCenters.RegionsOf | src/pages/SendParcel/SendParcel.jsx:37 | the region column, index by index |
| ServiceCenters.DistrictsOf | src/pages/Dashboard/BeARider/BeARider.jsx:28-32 | the district column, index by index |
| ServiceCenters.RegionOptions | src/pages/SendParcel/SendParcel.jsx:37 | every region of the table exactly once |
| ServiceCenters.DistrictsInRegion | src/pages/Dashboard/BeARider/BeARider.jsx:28-32 | exactly the districts of the centres in the chosen region, repetitions kept |
| ServiceCenters.DistrictsInRegionSnoc | src/pages/Dashboard/BeARider/BeARider.jsx:28-32 | table order with repetitions kept: the empty table lists nothing, and a centre added at the end adds its district at the end exactly when it is in the region |
| ServiceCenters.DistrictOptions | src/pages/SendParcel/SendParcel.jsx:41-55 | exactly the districts of the chosen region, each once |
| ServiceCenters.FindCenter | src/pages/SendParcel/SendParcel.jsx:59-63 | the first centre matching region and district; none iff no centre matches |
| ServiceCenters.AreaOptions | src/pages/SendParcel/SendParcel.jsx:59-69 | the covered areas of the first matching centre, or no options when none matches |
| ServiceCenters.RiderDistrictsMayRepeat | src/pages/Dashboard/BeARider/BeARider.jsx:28-32 | the rider form lists a district twice when two centres share it, whereas the booking form lists it once |
| Booking.FinalBooking | src/pages/SendParcel/SendParcel.jsx:159-169 | the record keeps every form field; its charge is the computed total; it is "unpaid" and "not_collected"; it carries the tracking id, the creator's email and the creation instant in ISO form, whose date part without dashes is that instant's `YYYYMMDD` |
| Booking.RequiredFields | src/pages/SendParcel/SendParcel.jsx:233-413 | the fifteen fields the form marks required |
| Booking.SubmitBooking | src/pages/SendParcel/SendParcel.jsx:114-250 | a record is posted iff every required field is filled, a non-document parcel has an entered weight of at least 0.1 kg, and the sender confirms; it carries a well-formed tracking id whose date is the current UTC date and whose tail is the upper-cased random characters 2 to 8, and the creation instant in ISO form |
| Booking.PostedBookingPassedTheRules | src/pages/SendParcel/SendParcel.jsx:238-250 | a posted non-document parcel was priced on an entered weight of at least 0.1 kg and costs at least 110; a posted booking has no empty required field |
| Booking.MissingWeightIsRejected | src/pages/SendParcel/SendParcel.jsx:244-248 | a non-document parcel with no weight, or 0.05 kg, is never posted; a document without weight is |
| Booking.NewBookingAwaitsRider | src/pages/SendParcel/SendParcel.jsx:166 | a freshly booked parcel has no next step in the rider workflow |
| DeliveryStatus.NextStatus | src/pages/Dashboard/PendingDeliveries/PendingDeliveries.jsx:29-35 | the requested status is a workflow status or empty |
| DeliveryStatus.NextStatusAdvancesOneStep | src/pages/Dashboard/PendingDeliveries/PendingDeliveries.jsx:29-35 | a successor exists exactly for the two non-final states, and it is the next state of the workflow |
| DeliveryStatus.TwoStepsToCompletion | src/pages/Dashboard/PendingDeliveries/PendingDeliveries.jsx:29-35 | two updates take "Rider assigned" to "Delivery Completed", which is final |
| DeliveryStatus.ActionLabel | src/pages/Dashboard/PendingDeliveries/PendingDeliveries.jsx:139-141 | the button reads "Mark Picked Up" or "Mark Delivered" |
| DeliveryStatus.ActionLabelMatchesTransition | src/pages/Dashboard/PendingDeliveries/PendingDeliveries.jsx:139-141 | "Mark Picked Up" is shown iff the request is "In transit" |
| DeliveryStatus.StatusUpdateAsWritten | src/pages/Dashboard/PendingDeliveries/PendingDeliveries.jsx:28-63 | a request is sent iff the rider confirms, carrying the computed status, empty or not |
| DeliveryStatus.AsWrittenSendsEmptyStatus | src/pages/Dashboard/PendingDeliveries/PendingDeliveries.jsx:50-52 | a confirmed update of a completed parcel sends an empty status |
| DeliveryStatus.StatusUpdate | src/pages/Dashboard/PendingDeliveries/PendingDeliveries.jsx:28-63 | a request is sent iff confirmed and a successor exists, and it moves exactly one step forward |
| DeliveryStatus.StatusUpdateAgreesWhenDefined | src/pages/Dashboard/PendingDeliveries/PendingDeliveries.jsx:28-63 | wherever a successor exists, the corrected update sends what the original sends |
| Earnings.EarningShare | src/pages/Dashboard/CompletedDeliveries/CompletedDeliveries.jsx:29-32 | 80 % of the charge within a district, 30 % across; 0 without a charge; between 0 and the charge for a non-negative charge |
| Earnings.TotalDeliveryCharge | src/pages/Dashboard/CompletedDeliveries/CompletedDeliveries.jsx:34-37 | the sum of all charges, a missing charge counting 0, which splits into cashed-out plus available |
| Earnings.TotalRiderEarnings | src/pages/Dashboard/CompletedDeliveries/CompletedDeliveries.jsx:39-45 | the sum of earnings over exactly the parcels not cashed out; with non-negative charges it lies between 0 and the full earnings |
| Earnings.AvailableAtMostTotal | src/pages/Dashboard/CompletedDeliveries/CompletedDeliveries.jsx:34-45 | available earnings ≤ all earnings ≤ all charges |
| Earnings.Earning | src/pages/Dashboard/CompletedDeliveries/CompletedDeliveries.jsx:29-32 | `calculateEarning`, the one definition both the completed-deliveries screen and the earnings screen (src/pages/Dashboard/MyEarnings/MyEarnings.jsx:30-34) use; its contract is stated by `Earnings.EarningShare` |
| Earnings.CashoutRequest | src/pages/Dashboard/CompletedDeliveries/CompletedDeliveries.jsx:76-92 | a cash-out PATCH for the parcel is sent iff it is not already cashed out and the rider confirms; the server's answer is not modelled |
| Earnings.CellOf | src/pages/Dashboard/CompletedDeliveries/CompletedDeliveries.jsx:149-161 | the button is shown iff the parcel is not cashed out, and it is disabled exactly while a cash-out is pending |
| Earnings.CashoutClick | src/pages/Dashboard/CompletedDeliveries/CompletedDeliveries.jsx:149-161 | a click in the row sends a cash-out PATCH for the parcel iff no cash-out is pending, the parcel is not cashed out, and the rider confirms |
| Earnings.ShownButtonSkipsAlreadyCashedOut | src/pages/Dashboard/CompletedDeliveries/CompletedDeliveries.jsx:76-92 | an enabled button never reaches the "Already Cashed Out" branch, and no click asks for a parcel while a cash-out is in flight |
| MyEarnings.PeriodOf | src/pages/Dashboard/MyEarnings/MyEarnings.jsx:44-60 | "today", "week", "month" and "year" select the day, week, month and year periods respectively; any other filter selects none and means overall |
| MyEarnings.FilteredParcels | src/pages/Dashboard/MyEarnings/MyEarnings.jsx:37-62 | an ordered subsequence holding only validly dated parcels; overall keeps all of them, a period keeps those in it |
| MyEarnings.PeriodNarrowsOverall | src/pages/Dashboard/MyEarnings/MyEarnings.jsx:37-62 | every period filter shows a subset of the overall list |
| MyEarnings.Summarize | src/pages/Dashboard/MyEarnings/MyEarnings.jsx:65-74 | the cards hold total earnings, cashed-out earnings, and their difference, which equals the earnings still available |
| MyEarnings.SummaryBounds | src/pages/Dashboard/MyEarnings/MyEarnings.jsx:65-74 | with non-negative charges, 0 ≤ cashed out ≤ total and 0 ≤ pending ≤ total |
| MyEarnings.OverallPendingMatchesAvailable | src/pages/Dashboard/MyEarnings/MyEarnings.jsx:30-74 | under "overall" the pending card equals the completed-deliveries screen's available total |
| CashoutModal.FailureText | src/pages/Dashboard/CompletedDeliveries/CashoutModal.jsx:50-52 | the server's message when non-empty, else the default text |
| CashoutModal.HandleCashout | src/pages/Dashboard/CompletedDeliveries/CashoutModal.jsx:16-56 | a request for the amount is sent iff 100 ≤ amount ≤ balance; the minimum error takes precedence over the balance error; a sent request errs iff the server rejects it; the spinner is off afterwards; the dialog closes only on success |
| CashoutModal.AttemptForgetsPriorError | src/pages/Dashboard/CompletedDeliveries/CashoutModal.jsx:18 | the previous error never influences an attempt |
| CashoutModal.NothingSentBelowMinimumBalance | src/pages/Dashboard/CompletedDeliveries/CashoutModal.jsx:23-33 | with a balance below 100 nothing is ever sent |
| CashoutModal.BoundariesAccepted | src/pages/Dashboard/CompletedDeliveries/CashoutModal.jsx:23-33 | exactly 100 and exactly the balance are both accepted |
| CashoutModal.ViewOf | src/pages/Dashboard/CompletedDeliveries/CashoutModal.jsx:58-77 | the form is shown iff open with no pending request; the notice iff open with one |
| CashoutModal.Submit | src/pages/Dashboard/CompletedDeliveries/CashoutModal.jsx:58-119 | the handler runs iff the form is shown, the button is not disabled by a request in flight, and the browser accepts the amount (entered, 100 ≤ amount ≤ balance, on the 0.01 step from 100); a pending request blocks any submission; what is sent is the entered amount |
| CashoutModal.HandlerChecksUnreachable | src/pages/Dashboard/CompletedDeliveries/CashoutModal.jsx:23-33 | behind the browser's validation the handler's minimum and balance messages never appear after a submission |
| CashoutModal.NativelyBlockedPresses | src/pages/Dashboard/CompletedDeliveries/CashoutModal.jsx:92-119 | 50, 150.005, an empty amount, and any press while loading do nothing; 150.25 within the balance is submitted |
| UserRole.ResolveRole | src/hooks/useUserRole.jsx:19 | the server's role when present and non-empty, otherwise "user" |
| UserRole.MissingRoleIsPlainUser | src/hooks/useUserRole.jsx:19 | without a role from the server nobody is a rider or an admin |
| UserRole.RoleQueryEnabled | src/hooks/useUserRole.jsx:12 | the role is fetched iff there is a non-empty email and authentication has settled |
| UserRole.UseUserRole | src/hooks/useUserRole.jsx:10-22 | the role is the server's non-empty answer, "user" while there is no answer, and the hook is loading exactly while authentication is or the query is fetching |
| UserRole.DisabledQueryGivesPlainUser | src/hooks/useUserRole.jsx:10-22 | while the query is disabled the hook reports "user", loading exactly while authentication is |
| UserRole.RoleLoading | src/hooks/useUserRole.jsx:20 | loading whenever authentication or the query is |
| DashboardLayout.SidebarLinks | src/layouts/DashboardLayout.jsx:66-117 | the five common links always; rider links iff the role is "rider" and loaded; admin links iff "admin" and loaded; fixed head and tail order; every link sits above the next in the full sidebar; no link twice |
| DashboardLayout.OrderedHasNoRepeats | src/layouts/DashboardLayout.jsx:66-117 | a link list that follows the sidebar's top-to-bottom order names no link twice |
| DashboardLayout.RoleGroupsExclusive | src/layouts/DashboardLayout.jsx:78-109 | rider and admin links never appear together; while loading only the common links appear |
| DashboardLayout.SidebarOrder | src/layouts/DashboardLayout.jsx:66-117 | head, then the whole rider group or nothing, then the whole admin group or nothing, then tail |
| DashboardLayout.UnknownRoleSeesCommonLinks | src/layouts/DashboardLayout.jsx:78-109 | a user whose role the server does not report sees only the common links |
| DashboardLayout.DisabledRoleQueryShowsCommonLinks | src/hooks/useUserRole.jsx:12 | whoever the role query is disabled for sees only the common sidebar links |
| ManageAdmin.OfferedAction | src/pages/Dashboard/ManageAdmin/ManageAdmin.jsx:169-183 | "make admin" iff the row is not an admin, "revoke" iff it is |
| ManageAdmin.RoleBadge | src/pages/Dashboard/ManageAdmin/ManageAdmin.jsx:159-163 | the Admin badge iff the row's role is "admin" |
| ManageAdmin.BadgeMatchesAction | src/pages/Dashboard/ManageAdmin/ManageAdmin.jsx:159-183 | the badge shows Admin iff the offered action is revoke |
| ManageAdmin.HandleMakeAdmin | src/pages/Dashboard/ManageAdmin/ManageAdmin.jsx:31-63 | a promotion of that user is sent iff it is not the signed-in admin and the click is confirmed |
| ManageAdmin.HandleRevokeAdmin | src/pages/Dashboard/ManageAdmin/ManageAdmin.jsx:66-100 | a demotion of that user is sent iff it is not the signed-in admin and the click is confirmed |
| ManageAdmin.ClickAction | src/pages/Dashboard/ManageAdmin/ManageAdmin.jsx:169-183 | a sent request targets the row, is confirmed, is not about oneself, and promotes iff the row is not an admin |
| ManageAdmin.NeverPatchesSelf | src/pages/Dashboard/ManageAdmin/ManageAdmin.jsx:32-38 | no click changes the signed-in admin's own role |
| ManageAdmin.SearchTrigger | src/pages/Dashboard/ManageAdmin/ManageAdmin.jsx:102-105 | the trimmed text is empty iff the input was blank, and otherwise neither begins nor ends with white space |
| ManageAdmin.BlankSearchDoesNotQuery | src/pages/Dashboard/ManageAdmin/ManageAdmin.jsx:21 | white space alone never starts a search |
| ManageAdmin.ShowsNoUsersFound | src/pages/Dashboard/ManageAdmin/ManageAdmin.jsx:134-136 | shown iff a search was triggered, finished, and found nobody |
| ManageAdmin.NoUsersMeansNonBlankSearch | src/pages/Dashboard/ManageAdmin/ManageAdmin.jsx:102-136 | "No users found" only answers a search for something other than white space |
| ManageAdmin.UsersOf | src/pages/Dashboard/ManageAdmin/ManageAdmin.jsx:16 | without an answer from the server the rows are empty |
| ManageAdmin.PanelsShown | src/pages/Dashboard/ManageAdmin/ManageAdmin.jsx:126-138 | at most the four blocks, and "No users found" never beside the prompt or the table |
| ManageAdmin.ExactlyOnePanel | src/pages/Dashboard/ManageAdmin/ManageAdmin.jsx:126-138 | with the query enabled only for a non-empty trigger, exactly one block shows: the prompt before a search, "Searching..." during it, the table when rows came back, "No users found" otherwise |
| Text.Trim | src/pages/Dashboard/ManageAdmin/ManageAdmin.jsx:104 | the result is a slice of the input with only white space cut from either side and non-white characters at both ends |
| Text.TrimEmptyIffBlank | src/pages/Dashboard/ManageAdmin/ManageAdmin.jsx:104 | trimming gives the empty string iff the input is all white space |
| Text.IncludesIffOccurs | src/pages/Dashboard/PaymentHistory/PaymentHistory.jsx:30-32 | `includes` holds iff the needle occurs at some position |
| Text.Lower | src/pages/Dashboard/PaymentHistory/PaymentHistory.jsx:31-32 | each ASCII capital becomes its lower-case letter, every other character is kept |
| Text.LowerForgetsCase | src/pages/Dashboard/PaymentHistory/PaymentHistory.jsx:30-32 | lower-casing an upper-cased or lower-cased string gives its own lower-case form |
| Text.Upper | src/pages/SendParcel/SendParcel.jsx:13 | each ASCII lower-case letter becomes its capital, every other character is kept |
| PaymentHistory.FilteredPayments | src/pages/Dashboard/PaymentHistory/PaymentHistory.jsx:28-46 | the ordered subsequence of exactly the payments that pass search, from-date and to-date |
| PaymentHistory.ComparedInstant | src/pages/Dashboard/PaymentHistory/PaymentHistory.jsx:34 | a falsy date compares as 0, an unparseable one as `NaN`, a valid one as its instant |
| PaymentHistory.UndatedPayments | src/pages/Dashboard/PaymentHistory/PaymentHistory.jsx:34-42 | a payment without a date passes a from-bound only up to the epoch day and a to-bound only from it; one with an unparseable date passes a bound only when that bound is empty |
| PaymentHistory.Totals | src/pages/Dashboard/PaymentHistory/PaymentHistory.jsx:49-52 | the count shown and the sum of the shown amounts, a missing amount counting 0 |
| PaymentHistory.EmptySearchNeedsOnlyAnId | src/pages/Dashboard/PaymentHistory/PaymentHistory.jsx:30-32 | an empty search matches exactly the payments with a transaction id |
| PaymentHistory.SearchIgnoresCase | src/pages/Dashboard/PaymentHistory/PaymentHistory.jsx:30-32 | an id is found by its upper- or lower-cased spelling |
| PaymentHistory.DateBoundsInclusive | src/pages/Dashboard/PaymentHistory/PaymentHistory.jsx:36-42 | midnight of the from-day and 23:59:59.000 of the to-day pass; one millisecond outside fails |
| PaymentHistory.NarrowingFilters | src/pages/Dashboard/PaymentHistory/PaymentHistory.jsx:36-44 | date filters only remove payments |
| PaymentHistory.Reset | src/pages/Dashboard/PaymentHistory/PaymentHistory.jsx:150-158 | after a reset the reset button is disabled |
| PaymentHistory.ResetShowsAllWithId | src/pages/Dashboard/PaymentHistory/PaymentHistory.jsx:150-158 | after a reset the list is exactly the payments with a transaction id, in order |
| RiderApplication.AgeError | src/pages/Dashboard/BeARider/BeARider.jsx:125-128 | no error iff an age is given and it is at least 18; a missing age reports "Age is required" |
| RiderApplication.MatchesPhonePattern | src/pages/Dashboard/BeARider/BeARider.jsx:141-147 | the scan accepts iff the phone is 10 to 15 ASCII digits |
| RiderApplication.PhoneError | src/pages/Dashboard/BeARider/BeARider.jsx:141-147 | no error iff the phone is 10 to 15 ASCII digits; an empty phone reports "Phone is required" |
| RiderApplication.RequiredError | src/pages/Dashboard/BeARider/BeARider.jsx:159 | a required field errs iff it is empty |
| RiderApplication.ErrorOf | src/pages/Dashboard/BeARider/BeARider.jsx:159 | a field contributes its one message iff its rule fails |
| RiderApplication.Validate | src/pages/Dashboard/BeARider/BeARider.jsx:125-255 | no errors iff age ≥ 18, the phone is valid, and region, district, bike brand, bike model, registration and NID are all filled |
| RiderApplication.ExperienceIsOptional | src/pages/Dashboard/BeARider/BeARider.jsx:255 | the experience field never decides validity |
| RiderApplication.Submit | src/pages/Dashboard/BeARider/BeARider.jsx:36-43 | a record is posted iff the form is valid; it keeps the form, takes name and email from the signed-in user, has status "pending" and the entered age, at least 18 |
| RiderApplication.ApplicationOptions | src/pages/Dashboard/BeARider/BeARider.jsx:23-32 | a region is offered exactly when choosing it offers some district; the district list is empty exactly when no centre serves the region; there are no regions exactly when there are no centres |
| TrackParcel.StatusBadge | src/pages/Dashboard/TrackParcel/TrackParcel.jsx:20-35 | each of the five known status texts has its colour ("Payment Paid" and "Delivery Completed" share success); any other text is neutral |
| TrackParcel.StatusMatchIsCaseSensitive | src/pages/Dashboard/TrackParcel/TrackParcel.jsx:20-35 | another capitalisation of a known status, or the empty status, is neutral; the rider workflow's "Rider assigned" is neutral while "Rider Assigned" is primary |
| TrackParcel.Step | src/pages/Dashboard/TrackParcel/TrackParcel.jsx:43-52 | typing changes only the box; "Track" copies the box into the search id |
| TrackParcel.LookupEnabled | src/pages/Dashboard/TrackParcel/TrackParcel.jsx:13 | the lookup runs iff the search id is non-empty |
| TrackParcel.TypingAloneNeverLooksUp | src/pages/Dashboard/TrackParcel/TrackParcel.jsx:47-52 | any amount of typing leaves the search id unchanged |
| TrackParcel.NoLookupBeforeTrack | src/pages/Dashboard/TrackParcel/TrackParcel.jsx:9-13 | from the initial screen nothing is looked up until "Track" is pressed with a non-empty box |
| Testimonials.Prev | src/pages/Home/Testimonials/Testimonials.jsx:28-29 | from a valid card, the previous card modulo 3 |
| Testimonials.Next | src/pages/Home/Testimonials/Testimonials.jsx:30-31 | from a valid card, the next card modulo 3 |
| Testimonials.PrevNextInverse | src/pages/Home/Testimonials/Testimonials.jsx:28-31 | previous and next undo each other; three nexts return to the start |
| Testimonials.Dot | src/pages/Home/Testimonials/Testimonials.jsx:93-96 | a dot selects its own card |
| Testimonials.ActiveStaysInRange | src/pages/Home/Testimonials/Testimonials.jsx:26-31 | every click sequence keeps the active card among the three testimonials |
| Testimonials.CarouselStartsInRange | src/pages/Home/Testimonials/Testimonials.jsx:26 | the carousel starts on the middle card, a valid one |

## Left out

- Network requests (axios and the 401/403 interceptor of src/hooks/useAxiosSecure.jsx), TanStack Query caching and refetching, SweetAlert dialogs, and React rendering are left out. A dialog's answer, a server reply, and a query's progress are parameters. `UserRole.UseUserRole` and `ManageAdmin.ExactlyOnePanel` do not model data cached under a query key from an earlier search or session.
- Payment through Stripe and the Leaflet coverage maps are left out. They are foreign components.
- Other screens are left out: parcel lists, rider approval and assignment, cash-out history, authentication, and routing. They hold no rule beyond a request to the server.
- `Pricing.CalculatePrice`: JavaScript's IEEE-754 double arithmetic and `toFixed` rounding are left out. Weights and charges are exact reals, so the rounding error of an extra charge such as (3.1 − 3) × 40 is not reproduced.
- `CashoutModal.HandleCashout`: the amount is the number `parseFloat` produced. A `NaN` amount would fail both comparisons and be posted, but `CashoutModal.Submit` never passes one: the browser refuses an empty or non-numeric entry before the handler runs.
- `CashoutModal.NativeValid`: `step` validation is on exact reals, not the browser's double arithmetic, and an input's `max` attribute is the balance as a number without rounding.
- `MyEarnings.FilteredParcels`: dayjs' "same period as now" test is a parameter. Week boundaries depend on the locale. A parcel without a `deliveredAt` field is dated now by dayjs; the caller supplies that instant as `Some(now)`, because the clock is not part of the model.
- `PaymentHistory.DayEnd`: a date-only string parses as UTC midnight, but `T23:59:59` parses in local time. The model puts both bounds in UTC, so local time zones are not modelled.
- `Text.Lower` and `Text.Upper` map only ASCII letters. JavaScript's full Unicode case mapping is not modelled.
- `TrackingIds.IsoString` covers years 0 through 9999 only. `toISOString` writes a six-digit signed year outside that range.
- The effect that clears the district and area selects when a region changes (src/pages/SendParcel/SendParcel.jsx:73-81) is left out. It touches only form state.
- The pending-deliveries status badge colours are left out because they are presentation only.
- The HTML body of the booking confirmation dialog is left out.
- `Booking.SubmitBooking`: a weight typed in while the parcel was a non-document, and still held after switching back to "Document", is not modelled. A document's weight is neither validated nor priced.
- `Pricing.EffectiveWeight`: the 0 kg fallback matters only for the live price shown while the form is incomplete. A submitted non-document parcel always has an entered weight.
- `src/hooks/useAuth.jsx` is not part of this model. The signed-in user and its loading flag are parameters.

## Findings

| source | as written | input that shows it | evidently intended | confidence | as-written member | corrected member |
|---|---|---|---|---|---|---|
| src/pages/Dashboard/PendingDeliveries/PendingDeliveries.jsx:28-52 | the status is `""` unless the parcel is "Rider assigned" or "In transit", yet a confirmed click still sends it | a confirmed update of a parcel whose status is "Delivery Completed" (or spelled "Rider Assigned") sends `{ status: "" }` | send a request only when a successor status exists | low, not executed | DeliveryStatus.StatusUpdateAsWritten, DeliveryStatus.AsWrittenSendsEmptyStatus | DeliveryStatus.StatusUpdate |

=== FILE: booking.dfy ===
/** Assembly of the parcel record the booking form posts once the sender
    confirms the summary dialog. */
module Booking {
  import opened Optional
  import opened Pricing
  import opened TrackingIds
  import opened Text
  import DeliveryStatus

  /** The posted record: every form field, plus the fields the client adds. */
  datatype ParcelBooking = ParcelBooking(
    form: ParcelForm,
    trackingId: string,
    deliveryCharge: real,
    createdBy: string,
    paymentStatus: string,
    deliveryStatus: string,
    creationDate: string)

  const Unpaid: string := "unpaid"
  const NotCollected: string := "not_collected"

  const NonDocumentType: string := "Non-Document"
  /** The `min` rule of the weight input, in kilograms. */
  const MinimumWeight: real := 0.1

  /** The fifteen text fields and selects that carry `required: true`, in form
      order: the parcel name, then the sender's and the receiver's name,
      address, contact, region, district, area and instruction. */
  function RequiredFields(f: ParcelForm): (r: seq<string>)
    ensures |r| == 15
  {
    [f.parcelName,
     f.senderName, f.senderFullAddress, f.senderContact, f.senderRegion,
     f.senderDistrict, f.senderArea, f.senderInstruction,
     f.receiverName, f.receiverFullAddress, f.receiverContact, f.receiverRegion,
     f.receiverDistrict, f.receiverArea, f.receiverInstruction]
  }

  /** The weight input is shown, and required, only for a non-document
      parcel; an entered value below 0.1 fails its `min` rule. */
  predicate WeightAccepted(f: ParcelForm) {
    f.parcelType == NonDocumentType ==> f.parcelWeight.Some? && f.parcelWeight.value >= MinimumWeight
  }

  /** The form library's verdict: every required field is non-empty and the
      weight rule holds. Only then is `onSubmit` called. */
  predicate FormValid(f: ParcelForm) {
    && (forall i :: 0 <= i < |RequiredFields(f)| ==> RequiredFields(f)[i] != "")
    && WeightAccepted(f)
  }

  /** `finalBooking`: the form spread first, then the added fields. */
  function FinalBooking(form: ParcelForm, trackingId: string, createdBy: string, created: UtcDateTime): (b: ParcelBooking)
    requires ValidDateTime(created)
    ensures b.form == form
    ensures b.deliveryCharge == CalculatePrice(form).total
    ensures b.paymentStatus == "unpaid" && b.deliveryStatus == "not_collected"
    ensures b.trackingId == trackingId && b.createdBy == createdBy
    ensures b.creationDate == IsoString(created)
    ensures RemoveDashes(b.creationDate[..10]) == DateDigits(created)
  {
    DatePartIsDateDigits(created);
    ParcelBooking(form, trackingId, CalculatePrice(form).total, createdBy, Unpaid, NotCollected, IsoString(created))
  }

  /** `handleSubmit(onSubmit)`: the form library checks the field rules and
      calls `onSubmit` only when they pass; `onSubmit` prices the form, draws
      a tracking identifier and builds the record only if the sender confirms.
      `None` means nothing is posted. */
  function SubmitBooking(form: ParcelForm, confirmed: bool, email: string,
                         now: UtcDateTime, random: string, created: UtcDateTime): (r: Option<ParcelBooking>)
    requires ValidDateTime(now) && ValidDateTime(created)
    requires IsRandomBase36(random)
    ensures r.Some? <==> confirmed && FormValid(form)
    ensures r.Some? ==> && r.value.form == form
                        && r.value.deliveryCharge == CalculatePrice(form).total
                        && IsTrackingId(r.value.trackingId)
                        && DateSegment(r.value.trackingId) == DateDigits(now)
                        && r.value.createdBy == email
                        && r.value.paymentStatus == "unpaid"
                        && r.value.deliveryStatus == "not_collected"
                        && RandomSegment(r.value.trackingId) == Upper(Substring(random, 2, 8))
                        && r.value.creationDate == IsoString(created)
                        && RemoveDashes(r.value.creationDate[..10]) == DateDigits(created)
  {
    if !FormValid(form) then None
    else
      var trackingId := GenerateTrackingId(now, random);
      if confirmed then Some(FinalBooking(form, trackingId, email, created)) else None
  }

  /** A posted non-document parcel was priced on the weight the sender entered,
      at least 0.1 kg, never on the 0 kg fallback, and costs at least the
      parcel base price. A posted booking never has an empty required field. */
  lemma PostedBookingPassedTheRules(form: ParcelForm, confirmed: bool, email: string,
                                    now: UtcDateTime, random: string, created: UtcDateTime)
    requires ValidDateTime(now) && ValidDateTime(created)
    requires IsRandomBase36(random)
    ensures var r := SubmitBooking(form, confirmed, email, now, random, created);
            r.Some? && form.parcelType == NonDocumentType ==>
              && form.parcelWeight.Some?
              && EffectiveWeight(form.parcelWeight) >= MinimumWeight
              && r.value.deliveryCharge >= ParcelWithinCity
    ensures var r := SubmitBooking(form, confirmed, email, now, random, created);
            r.Some? ==> form.parcelName != "" && form.senderContact != "" && form.receiverContact != ""
  {
    assert RequiredFields(form)[0] == form.parcelName;
    assert RequiredFields(form)[3] == form.senderContact;
    assert RequiredFields(form)[10] == form.receiverContact;
  }

  /** A non-document parcel with the weight left empty, or below 0.1 kg, is
      never posted, however the rest of the form is filled in. */
  lemma MissingWeightIsRejected(now: UtcDateTime, random: string, created: UtcDateTime)
    requires ValidDateTime(now) && ValidDateTime(created)
    requires IsRandomBase36(random)
    ensures SubmitBooking(SampleForm("Non-Document", None, "Dhaka", "Dhaka"), true, "a@b.c", now, random, created).None?
    ensures SubmitBooking(SampleForm("Non-Document", Some(0.05), "Dhaka", "Dhaka"), true, "a@b.c", now, random, created).None?
    ensures SubmitBooking(SampleForm("Document", None, "Dhaka", "Dhaka"), true, "a@b.c", now, random, created).Some?
  {
    var doc := SampleForm("Document", None, "Dhaka", "Dhaka");
    assert forall i :: 0 <= i < |RequiredFields(doc)| ==> RequiredFields(doc)[i] != "";
  }

  /** A new booking is not yet in the rider workflow: its status has no
      successor there until a rider is assigned. */
  lemma NewBookingAwaitsRider(form: ParcelForm, trackingId: string, createdBy: string, created: UtcDateTime)
    requires ValidDateTime(created)
    ensures DeliveryStatus.NextStatus(FinalBooking(form, trackingId, createdBy, created).deliveryStatus) == ""
  {
  }
}

=== FILE: cashout_modal.dfy ===
/** The rider's cash-out request dialog: which view it shows, and what one
    press of "Request Cashout" does to the dialog and to the server. */
module CashoutModal {
  import opened Optional

  const MinimumCashout: real := 100.0
  const DefaultFailure: string := "Failed to process cashout request"

  datatype ModalError =
    | NoError
    | BelowMinimum                          // "Minimum cashout amount is ৳100"
    | InsufficientBalance(available: real)  // "Insufficient balance. Available: ৳<balance>"
    | ServerError(message: string)

  /** The dialog's own state, plus whether its parent still shows it: `open`
      is the `isOpen` prop. */
  datatype ModalState = ModalState(error: ModalError, loading: bool, open: bool)

  /** How the POST ends: `success` set, answered without `success`, or thrown
      with an optional server message. */
  datatype ServerReply = Succeeded | NotSucceeded | Rejected(message: Option<string>)

  /** The request body's amount, if a request was sent, and the dialog afterwards. */
  datatype Attempt = Attempt(request: Option<real>, after: ModalState)

  /** `err.response?.data?.message || "Failed to process cashout request"`. */
  function FailureText(message: Option<string>): (r: string)
    ensures r != ""
    ensures message.Some? && message.value != "" ==> r == message.value
  {
    if message.Some? && message.value != "" then message.value else DefaultFailure
  }

  /** `handleCashout`: clear the error and show the spinner, check the minimum,
      then the balance, then post; the spinner is cleared on every path. */
  function HandleCashout(before: ModalState, amount: real, balance: real, reply: ServerReply): (a: Attempt)
    ensures a.request.Some? <==> 100.0 <= amount <= balance
    ensures a.request.Some? ==> a.request.value == amount
    ensures amount < 100.0 ==> a.after.error == BelowMinimum
    ensures 100.0 <= amount && amount > balance ==> a.after.error == InsufficientBalance(balance)
    ensures a.request.Some? ==> (a.after.error == NoError <==> !reply.Rejected?)
    ensures !a.after.loading
    ensures a.after.open <==> before.open && !(a.request.Some? && reply == Succeeded)
  {
    var started := before.(error := NoError, loading := true);
    if amount < MinimumCashout then
      Attempt(None, started.(error := BelowMinimum, loading := false))
    else if amount > balance then
      Attempt(None, started.(error := InsufficientBalance(balance), loading := false))
    else
      var settled :=
        match reply
        case Succeeded => started.(open := false)
        case NotSucceeded => started
        case Rejected(m) => started.(error := ServerError(FailureText(m)));
      Attempt(Some(amount), settled.(loading := false))
  }

  /** Every attempt starts from a cleared error: what the previous attempt
      reported has no influence on this one. */
  lemma AttemptForgetsPriorError(before: ModalState, e: ModalError, amount: real, balance: real, reply: ServerReply)
    ensures HandleCashout(before.(error := e), amount, balance, reply)
            == HandleCashout(before.(error := NoError), amount, balance, reply)
  {
  }

  /** With less than the minimum available, no amount is ever sent, and an
      amount that is both too small and too large reports the minimum. */
  lemma NothingSentBelowMinimumBalance(before: ModalState, amount: real, balance: real, reply: ServerReply)
    requires balance < MinimumCashout
    ensures HandleCashout(before, amount, balance, reply).request.None?
    ensures amount < MinimumCashout ==> HandleCashout(before, amount, balance, reply).after.error == BelowMinimum
  {
  }

  /** Both ends of the accepted range are accepted. */
  lemma BoundariesAccepted(before: ModalState, balance: real, reply: ServerReply)
    requires balance >= MinimumCashout
    ensures HandleCashout(before, MinimumCashout, balance, reply).request == Some(MinimumCashout)
    ensures HandleCashout(before, balance, balance, reply).request == Some(balance)
  {
  }

  datatype View = Hidden | PendingNotice | CashoutForm

  /** `null` when closed; the pending notice while a request awaits approval;
      the form otherwise. */
  function ViewOf(isOpen: bool, hasPendingCashout: bool): (v: View)
    ensures v == CashoutForm <==> isOpen && !hasPendingCashout
    ensures v == PendingNotice <==> isOpen && hasPendingCashout
  {
    if !isOpen then Hidden
    else if hasPendingCashout then PendingNotice
    else CashoutForm
  }

  /** The cent grid of `step="0.01"` counted from `min="100"`: the amount
      minus 100, in hundredths, is a whole number. */
  predicate OnCentGrid(amount: real) {
    ((amount - MinimumCashout) * 100.0).Floor as real == (amount - MinimumCashout) * 100.0
  }

  /** The browser's own constraint validation of the amount input
      (`type="number" min="100" max={balance} step="0.01" required`): a value
      is entered, lies in [100, balance] and is on the cent grid. `None` is an
      empty input, which is also what a non-numeric entry reads as. */
  predicate NativeValid(amount: Option<real>, balance: real) {
    && amount.Some?
    && MinimumCashout <= amount.value <= balance
    && OnCentGrid(amount.value)
  }

  /** A press of "Request Cashout". The submit event fires only from the
      rendered form, while the button is enabled (`disabled={loading}`), and
      once the browser's validation passes; only then does `handleCashout` run.
      `None` means nothing happens to the dialog or the server. */
  function Submit(hasPendingCashout: bool, before: ModalState,
                  amount: Option<real>, balance: real, reply: ServerReply): (r: Option<Attempt>)
    ensures r.Some? <==> before.open && !hasPendingCashout && !before.loading && NativeValid(amount, balance)
    ensures hasPendingCashout ==> r.None?
    ensures r.Some? && r.value.request.Some? ==> MinimumCashout <= r.value.request.value <= balance
    ensures r.Some? ==> r.value.request == amount
  {
    if ViewOf(before.open, hasPendingCashout) == CashoutForm && !before.loading && NativeValid(amount, balance)
    then Some(HandleCashout(before, amount.value, balance, reply))
    else None
  }

  /** Behind the browser's validation the handler's own checks never fire: a
      submitted amount is always sent, so neither the minimum nor the balance
      message can appear after a submission. */
  lemma HandlerChecksUnreachable(hasPendingCashout: bool, before: ModalState,
                                 amount: Option<real>, balance: real, reply: ServerReply)
    ensures var r := Submit(hasPendingCashout, before, amount, balance, reply);
            r.Some? ==> r.value.after.error != BelowMinimum && !r.value.after.error.InsufficientBalance?
  {
  }

  /** The presses the browser stops: an amount below the minimum, one off the
      cent grid, an empty input, and any press while a request is in flight. */
  lemma NativelyBlockedPresses(before: ModalState, reply: ServerReply)
    ensures Submit(false, before.(open := true), Some(50.0), 200.0, reply).None?
    ensures Submit(false, before.(open := true), Some(150.005), 200.0, reply).None?
    ensures Submit(false, before.(open := true), None, 200.0, reply).None?
    ensures Submit(false, before.(open := true, loading := true), Some(150.0), 200.0, reply).None?
    ensures !before.loading ==> Submit(false, before.(open := true), Some(150.25), 200.0, reply).Some?
  {
    assert ((150.005 - 100.0) * 100.0).Floor == 5000;
    assert ((150.25 - 100.0) * 100.0).Floor == 5025;
  }
}

=== FILE: dashboard_layout.dfy ===
/** The dashboard sidebar: which links appear for which role. */
module DashboardLayout {
  import opened Optional
  import UserRole

  datatype Link =
    | Home | MyParcels | PaymentHistory
    | PendingDeliveries | CompletedDeliveries
    | ActiveRiders | PendingRiders | ManageAdmin | AssignRider
    | TrackParcel | UpdateProfile

  const CommonHead: seq<Link> := [Home, MyParcels, PaymentHistory]
  const RiderLinks: seq<Link> := [PendingDeliveries, CompletedDeliveries]
  const AdminLinks: seq<Link> := [ActiveRiders, PendingRiders, ManageAdmin, AssignRider]
  const CommonTail: seq<Link> := [TrackParcel, UpdateProfile]

  predicate IsCommon(l: Link) {
    l in CommonHead || l in CommonTail
  }

  predicate IsRiderLink(l: Link) {
    l in RiderLinks
  }

  predicate IsAdminLink(l: Link) {
    l in AdminLinks
  }

  predicate ShowsRiderLinks(role: string, roleLoading: bool) {
    !roleLoading && role == "rider"
  }

  predicate ShowsAdminLinks(role: string, roleLoading: bool) {
    !roleLoading && role == "admin"
  }

  /** The links of the sidebar, top to bottom. */
  function SidebarLinks(role: string, roleLoading: bool): (r: seq<Link>)
    ensures forall l :: IsCommon(l) ==> l in r
    ensures forall l :: IsRiderLink(l) ==> (l in r <==> !roleLoading && role == "rider")
    ensures forall l :: IsAdminLink(l) ==> (l in r <==> !roleLoading && role == "admin")
    ensures |r| == 5 || |r| == 7 || |r| == 9
    ensures r[..3] == [Home, MyParcels, PaymentHistory]
    ensures r[|r| - 2..] == [TrackParcel, UpdateProfile]
    ensures InSidebarOrder(r)
    ensures NoRepeats(r)
  {
    var r :=
    if ShowsRiderLinks(role, roleLoading) then
      [Home, MyParcels, PaymentHistory, PendingDeliveries, CompletedDeliveries, TrackParcel, UpdateProfile]
    else if ShowsAdminLinks(role, roleLoading) then
      [Home, MyParcels, PaymentHistory, ActiveRiders, PendingRiders, ManageAdmin, AssignRider,
       TrackParcel, UpdateProfile]
    else
      [Home, MyParcels, PaymentHistory, TrackParcel, UpdateProfile];
    OrderedHasNoRepeats(r);
    r
  }

  predicate NoRepeats(r: seq<Link>) {
    forall i, j :: 0 <= i < j < |r| ==> r[i] != r[j]
  }

  /** Where a link sits in the full sidebar, top to bottom. */
  function Position(l: Link): nat {
    match l
    case Home => 0
    case MyParcels => 1
    case PaymentHistory => 2
    case PendingDeliveries => 3
    case CompletedDeliveries => 4
    case ActiveRiders => 5
    case PendingRiders => 6
    case ManageAdmin => 7
    case AssignRider => 8
    case TrackParcel => 9
    case UpdateProfile => 10
  }

  /** Each link is followed only by links that sit lower in the full sidebar. */
  predicate InSidebarOrder(r: seq<Link>) {
    forall i :: 0 <= i < |r| - 1 ==> Position(r[i]) < Position(r[i + 1])
  }

  lemma {:induction false} OrderedIncreasing(r: seq<Link>, i: nat, j: nat)
    requires InSidebarOrder(r)
    requires i < j < |r|
    ensures Position(r[i]) < Position(r[j])
    decreases j - i
  {
    if i + 1 < j {
      OrderedIncreasing(r, i + 1, j);
    }
  }

  /** A list in sidebar order names no link twice. */
  lemma OrderedHasNoRepeats(r: seq<Link>)
    requires InSidebarOrder(r)
    ensures NoRepeats(r)
  {
    forall i, j | 0 <= i < j < |r|
      ensures r[i] != r[j]
    {
      OrderedIncreasing(r, i, j);
    }
  }

  /** Rider and admin links never appear together, and while the role is
      loading only the five common links are shown, in their fixed order. */
  lemma RoleGroupsExclusive(role: string, roleLoading: bool)
    ensures !(exists l :: IsRiderLink(l) && l in SidebarLinks(role, roleLoading))
            || !(exists l :: IsAdminLink(l) && l in SidebarLinks(role, roleLoading))
    ensures roleLoading ==> SidebarLinks(role, roleLoading) == CommonHead + CommonTail
  {
  }

  /** The sidebar order: the common head, then the rider group, then the
      admin group, then the common tail; each group appears whole or not at all. */
  lemma SidebarOrder(role: string, roleLoading: bool)
    ensures exists rider, admin ::
              && (rider == [] || rider == RiderLinks)
              && (admin == [] || admin == AdminLinks)
              && SidebarLinks(role, roleLoading) == CommonHead + rider + admin + CommonTail
  {
    var rider := if ShowsRiderLinks(role, roleLoading) then RiderLinks else [];
    var admin := if ShowsAdminLinks(role, roleLoading) then AdminLinks else [];
    assert SidebarLinks(role, roleLoading) == CommonHead + rider + admin + CommonTail;
  }

  /** The sidebar for a user whose role the server has not reported shows
      neither rider nor admin links. */
  lemma UnknownRoleSeesCommonLinks(data: Option<UserRole.RoleData>, authLoading: bool, queryLoading: bool)
    requires data.None? || data.value.role.None?
    ensures SidebarLinks(UserRole.ResolveRole(data), UserRole.RoleLoading(authLoading, queryLoading))
            == CommonHead + CommonTail
  {
  }

  /** Whoever the role query is disabled for sees the common links only, with
      the role-specific groups hidden whether or not authentication is still
      loading. */
  lemma DisabledRoleQueryShowsCommonLinks(email: Option<string>, authLoading: bool, q: UserRole.RoleQuery)
    requires UserRole.ConsistentQuery(q, email, authLoading)
    ensures !UserRole.RoleQueryEnabled(email, authLoading) ==>
              var v := UserRole.UseUserRole(email, authLoading, q);
              SidebarLinks(v.role, v.roleLoading) == CommonHead + CommonTail
  {
    UserRole.DisabledQueryGivesPlainUser(email, authLoading, q);
    UnknownRoleSeesCommonLinks(None, authLoading, false);
  }
}

=== FILE: delivery_status.dfy ===
/** The rider's delivery workflow on the pending-deliveries screen:
    "Rider assigned" -> "In transit" -> "Delivery Completed". */
module DeliveryStatus {
  import opened Optional

  const RiderAssigned: string := "Rider assigned"
  const InTransit: string := "In transit"
  const DeliveryCompleted: string := "Delivery Completed"

  /** Position of a status in the workflow; `None` for any other string. */
  function Rank(s: string): Option<nat> {
    if s == RiderAssigned then Some(0)
    else if s == InTransit then Some(1)
    else if s == DeliveryCompleted then Some(2)
    else None
  }

  /** The status `handleStatusUpdate` asks for; `""` when there is no successor. */
  function NextStatus(s: string): (r: string)
    ensures r == "" || Rank(r).Some?
  {
    if s == RiderAssigned then InTransit
    else if s == InTransit then DeliveryCompleted
    else ""
  }

  /** A successor exists exactly for the two non-final workflow states, and it
      is always the next state of the workflow: no step goes backwards or skips. */
  lemma NextStatusAdvancesOneStep(s: string)
    ensures NextStatus(s) != "" <==> Rank(s).Some? && Rank(s).value < 2
    ensures NextStatus(s) != "" ==> Rank(NextStatus(s)).value == Rank(s).value + 1
  {
  }

  /** Applies `NextStatus` `n` times. */
  function Advance(s: string, n: nat): string
    decreases n
  {
    if n == 0 then s else Advance(NextStatus(s), n - 1)
  }

  /** Exactly two updates take a parcel from "Rider assigned" to
      "Delivery Completed", which is final; no status survives three updates. */
  lemma TwoStepsToCompletion(s: string)
    ensures Advance(RiderAssigned, 1) != DeliveryCompleted
    ensures Advance(RiderAssigned, 2) == DeliveryCompleted
    ensures NextStatus(DeliveryCompleted) == ""
    ensures Advance(s, 3) == ""
  {
    assert NextStatus("") == "";
  }

  /** The button label: "Mark Picked Up" for a freshly assigned parcel,
      "Mark Delivered" otherwise. */
  function ActionLabel(s: string): (r: string)
    ensures r == "Mark Picked Up" || r == "Mark Delivered"
  {
    if s == RiderAssigned then "Mark Picked Up" else "Mark Delivered"
  }

  /** The label names the transition the button requests: picking up exactly
      when the request is "In transit", delivering when it is "Delivery Completed". */
  lemma ActionLabelMatchesTransition(s: string)
    ensures ActionLabel(s) == "Mark Picked Up" <==> NextStatus(s) == InTransit
    ensures NextStatus(s) == DeliveryCompleted ==> ActionLabel(s) == "Mark Delivered"
  {
  }

  /** `handleStatusUpdate` as written: once confirmed, it sends whatever
      `NextStatus` gave, including `""`. `None` means no request. */
  function StatusUpdateAsWritten(s: string, confirmed: bool): (r: Option<string>)
    ensures r.Some? <==> confirmed
    ensures r.Some? ==> r.value == NextStatus(s)
  {
    var newStatus := NextStatus(s);
    if confirmed then Some(newStatus) else None
  }

  /** A confirmed click on a parcel whose status has no successor sends an
      empty status to the server. */
  lemma AsWrittenSendsEmptyStatus()
    ensures StatusUpdateAsWritten(DeliveryCompleted, true) == Some("")
    ensures StatusUpdateAsWritten("Rider Assigned", true) == Some("")
  {
  }

  /** The update with the missing guard: a request is sent only for a status
      that has a successor, and it always moves the parcel one step forward. */
  function StatusUpdate(s: string, confirmed: bool): (r: Option<string>)
    ensures r.Some? <==> confirmed && (s == RiderAssigned || s == InTransit)
    ensures r.Some? ==> Rank(r.value).Some? && Rank(s).Some?
                        && Rank(r.value).value == Rank(s).value + 1
  {
    var newStatus := NextStatus(s);
    if confirmed && newStatus != "" then Some(newStatus) else None
  }

  /** Wherever the original sends a real status, the corrected update sends the same one. */
  lemma StatusUpdateAgreesWhenDefined(s: string, confirmed: bool)
    requires NextStatus(s) != ""
    ensures StatusUpdate(s, confirmed) == StatusUpdateAsWritten(s, confirmed)
  {
  }
}

=== FILE: earnings.dfy ===
/** Rider earnings on the completed-deliveries screen: the per-parcel share of
    the delivery charge, the two summary totals, and the cash-out button. */
module Earnings {
  import opened Optional
  import opened Seqs

  /** A completed parcel as the rider endpoints return it. `deliveryCharge` is
      `None` when absent. `deliveredAt` is the instant, in milliseconds, that
      `dayjs(parcel.deliveredAt)` yields: an absent field reads as the current
      instant and is encoded as `Some(now)`; `None` stands for a `null` or
      unparseable value, which gives an invalid date. A missing
      `cashoutStatus` is the empty string. */
  datatype CompletedParcel = CompletedParcel(
    id: string,
    trackingId: string,
    senderDistrict: string,
    receiverDistrict: string,
    deliveryCharge: Option<real>,
    cashoutStatus: string,
    deliveredAt: Option<int>)

  const CashedOut: string := "cashed out"
  const WithinDistrictShare: real := 0.8
  const AcrossDistrictShare: real := 0.3

  /** `parcel.deliveryCharge || 0`. */
  function Charge(p: CompletedParcel): real {
    p.deliveryCharge.GetOr(0.0)
  }

  predicate IsCashedOut(p: CompletedParcel) {
    p.cashoutStatus == CashedOut
  }

  predicate IsAvailable(p: CompletedParcel) {
    !IsCashedOut(p)
  }

  /** `calculateEarning`, shared verbatim by the completed-deliveries and
      earnings screens. */
  function Earning(p: CompletedParcel): real {
    Charge(p) * (if p.senderDistrict == p.receiverDistrict then WithinDistrictShare else AcrossDistrictShare)
  }

  /** The rider earns 80% of the charge within a district and 30% across
      districts; a parcel without a charge earns nothing, and with a
      non-negative charge the earning lies between 0 and the charge. */
  lemma EarningShare(p: CompletedParcel)
    ensures p.senderDistrict == p.receiverDistrict ==> Earning(p) == Charge(p) * 8.0 / 10.0
    ensures p.senderDistrict != p.receiverDistrict ==> Earning(p) == Charge(p) * 3.0 / 10.0
    ensures p.deliveryCharge.None? ==> Earning(p) == 0.0
    ensures Charge(p) >= 0.0 ==> 0.0 <= Earning(p) <= Charge(p)
  {
  }

  predicate NonNegativeCharges(ps: seq<CompletedParcel>) {
    forall p :: p in ps ==> Charge(p) >= 0.0
  }

  /** `totalDeliveryCharge`: the reduce over every fetched parcel, whatever its
      cash-out status. */
  method TotalDeliveryCharge(ps: seq<CompletedParcel>) returns (total: real)
    ensures total == Sum(ps, Charge)
    ensures total == Sum(Filter(ps, IsCashedOut), Charge) + Sum(Filter(ps, IsAvailable), Charge)
  {
    total := 0.0;
    var i := 0;
    while i < |ps|
      invariant 0 <= i <= |ps|
      invariant total == Sum(ps[..i], Charge)
    {
      SumSnoc(ps[..i], ps[i], Charge);
      assert ps[..i + 1] == ps[..i] + [ps[i]];
      total := total + Charge(ps[i]);
      i := i + 1;
    }
    assert ps[..i] == ps;
    SumPartition(ps, Charge, IsCashedOut, IsAvailable);
  }

  /** `totalRiderEarnings`: the reduce that skips parcels already cashed out
      sums the earnings of exactly the parcels still available. */
  method TotalRiderEarnings(ps: seq<CompletedParcel>) returns (total: real)
    ensures total == Sum(Filter(ps, IsAvailable), Earning)
    ensures NonNegativeCharges(ps) ==> 0.0 <= total <= Sum(ps, Earning) <= Sum(ps, Charge)
  {
    total := 0.0;
    var i := 0;
    while i < |ps|
      invariant 0 <= i <= |ps|
      invariant total == Sum(Filter(ps[..i], IsAvailable), Earning)
    {
      var done, x := ps[..i], ps[i];
      FilterSnoc(done, x, IsAvailable);
      assert ps[..i + 1] == done + [x];
      if IsCashedOut(x) {
        assert Filter(ps[..i + 1], IsAvailable) == Filter(done, IsAvailable);
      } else {
        assert Filter(ps[..i + 1], IsAvailable) == Filter(done, IsAvailable) + [x];
        SumSnoc(Filter(done, IsAvailable), x, Earning);
        total := total + Earning(x);
      }
      i := i + 1;
    }
    assert ps[..i] == ps;
    if NonNegativeCharges(ps) {
      AvailableAtMostTotal(ps);
    }
  }

  /** With non-negative charges, what is still available never exceeds the
      total earned, which never exceeds the total charged. */
  lemma AvailableAtMostTotal(ps: seq<CompletedParcel>)
    requires NonNegativeCharges(ps)
    ensures 0.0 <= Sum(Filter(ps, IsAvailable), Earning) <= Sum(ps, Earning) <= Sum(ps, Charge)
  {
    forall p | p in ps ensures 0.0 <= Earning(p) <= Charge(p) {
      EarningShare(p);
    }
    SumFilterAtMost(ps, Earning, IsAvailable);
    SumMonotone(ps, Earning, Charge);
  }

  /** `handleCashout` on one parcel: a parcel already cashed out issues no
      request; otherwise the cash-out PATCH for that parcel is sent only once
      the rider confirms. The result is the id the mutation is called with;
      whether the server accepts it is not modelled. */
  function CashoutRequest(parcelId: string, cashoutStatus: string, confirmed: bool): (r: Option<string>)
    ensures r.Some? <==> cashoutStatus != CashedOut && confirmed
    ensures r.Some? ==> r.value == parcelId
  {
    if cashoutStatus == CashedOut then None
    else if confirmed then Some(parcelId)
    else None
  }

  /** The last cell of a parcel's row: a "Cashed Out" badge, or the
      "Cash Out" button, disabled while a cash-out mutation is pending. */
  datatype CashoutCell = CashedOutBadge | CashOutButton(disabled: bool)

  function CellOf(p: CompletedParcel, mutationPending: bool): (c: CashoutCell)
    ensures c.CashOutButton? <==> !IsCashedOut(p)
    ensures c.CashOutButton? ==> c.disabled == mutationPending
  {
    if IsCashedOut(p) then CashedOutBadge else CashOutButton(mutationPending)
  }

  /** A click in the last cell: only an enabled button reaches `handleCashout`.
      The result is the id the mutation is called with, if any. */
  function CashoutClick(p: CompletedParcel, mutationPending: bool, confirmed: bool): (r: Option<string>)
    ensures r.Some? <==> !mutationPending && !IsCashedOut(p) && confirmed
    ensures r.Some? ==> r.value == p.id
  {
    match CellOf(p, mutationPending)
    case CashedOutBadge => None
    case CashOutButton(disabled) => if disabled then None else CashoutRequest(p.id, p.cashoutStatus, confirmed)
  }

  /** The handler's "Already Cashed Out" branch is unreachable from the table:
      the button is rendered only for a parcel not cashed out, so an enabled
      button always leads to the confirmation dialog, and a confirmed click
      asks for exactly that parcel. While a cash-out is in flight no click
      asks for any parcel. */
  lemma ShownButtonSkipsAlreadyCashedOut(p: CompletedParcel, mutationPending: bool, confirmed: bool)
    ensures CellOf(p, mutationPending) == CashOutButton(false) ==>
              CashoutRequest(p.id, p.cashoutStatus, true) == Some(p.id)
              && CashoutClick(p, mutationPending, confirmed) == CashoutRequest(p.id, p.cashoutStatus, confirmed)
    ensures mutationPending ==> CashoutClick(p, mutationPending, confirmed).None?
  {
  }
}

=== FILE: manage_admin.dfy ===
/** The admin-management screen: the user search, the per-row action, and
    the guards that stop an admin from changing their own role. */
module ManageAdmin {
  import opened Optional
  import opened Text

  /** A search result row. `email` and `role` are `None` when absent. */
  datatype UserRow = UserRow(id: string, email: Option<string>, role: Option<string>)

  datatype Action = MakeAdmin | RevokeAdmin
  datatype Badge = AdminBadge | UserBadge

  /** The PATCH a click sends, if any. */
  datatype Patch = MakeAdminPatch(userId: string) | RevokeAdminPatch(userId: string)

  predicate IsAdmin(u: UserRow) {
    u.role == Some("admin")
  }

  /** The row offers "make admin" to anyone not an admin and "revoke" to admins. */
  function OfferedAction(u: UserRow): (a: Action)
    ensures a == MakeAdmin <==> !IsAdmin(u)
    ensures a == RevokeAdmin <==> IsAdmin(u)
  {
    if u.role != Some("admin") then MakeAdmin else RevokeAdmin
  }

  /** The role column: the Admin badge exactly for admins. */
  function RoleBadge(u: UserRow): (b: Badge)
    ensures b == AdminBadge <==> IsAdmin(u)
  {
    if u.role == Some("admin") then AdminBadge else UserBadge
  }

  /** The badge and the offered action always agree. */
  lemma BadgeMatchesAction(u: UserRow)
    ensures RoleBadge(u) == AdminBadge <==> OfferedAction(u) == RevokeAdmin
  {
  }

  /** `userItem.email === user?.email`: both sides may be absent, and two
      absent emails compare equal. */
  predicate IsSelf(u: UserRow, me: Option<string>) {
    u.email == me
  }

  /** `handleMakeAdmin`: refused for oneself; otherwise sent once confirmed. */
  function HandleMakeAdmin(u: UserRow, me: Option<string>, confirmed: bool): (r: Option<Patch>)
    ensures r.Some? <==> !IsSelf(u, me) && confirmed
    ensures r.Some? ==> r.value == MakeAdminPatch(u.id)
  {
    if u.email == me then None
    else if confirmed then Some(MakeAdminPatch(u.id))
    else None
  }

  /** `handleRevokeAdmin`: refused for oneself; otherwise sent once confirmed. */
  function HandleRevokeAdmin(u: UserRow, me: Option<string>, confirmed: bool): (r: Option<Patch>)
    ensures r.Some? <==> !IsSelf(u, me) && confirmed
    ensures r.Some? ==> r.value == RevokeAdminPatch(u.id)
  {
    if u.email == me then None
    else if confirmed then Some(RevokeAdminPatch(u.id))
    else None
  }

  /** A click on a row's action button. */
  function ClickAction(u: UserRow, me: Option<string>, confirmed: bool): (r: Option<Patch>)
    ensures r.Some? ==> !IsSelf(u, me) && confirmed
    ensures r.Some? ==> (r.value.MakeAdminPatch? <==> !IsAdmin(u)) && r.value.userId == u.id
  {
    match OfferedAction(u)
    case MakeAdmin => HandleMakeAdmin(u, me, confirmed)
    case RevokeAdmin => HandleRevokeAdmin(u, me, confirmed)
  }

  /** No click ever changes the role of the signed-in admin. */
  lemma NeverPatchesSelf(u: UserRow, me: Option<string>, confirmed: bool)
    requires IsSelf(u, me)
    ensures ClickAction(u, me, confirmed).None?
  {
  }

  /** `handleSearch`: the submitted text, trimmed. It is empty exactly when
      the text was blank, and otherwise neither starts nor ends with white space. */
  function SearchTrigger(searchText: string): (r: string)
    ensures |r| <= |searchText|
    ensures r == "" <==> AllWhitespace(searchText)
    ensures r != "" ==> !IsWhitespace(r[0]) && !IsWhitespace(r[|r| - 1])
  {
    TrimEmptyIffBlank(searchText);
    Trim(searchText)
  }

  /** The search query runs only for a non-empty trigger. */
  predicate SearchEnabled(trigger: string) {
    trigger != ""
  }

  /** Searching for nothing but white space never queries the server. */
  lemma BlankSearchDoesNotQuery(searchText: string)
    requires AllWhitespace(searchText)
    ensures !SearchEnabled(SearchTrigger(searchText))
  {
  }

  /** "No users found": a search was triggered, it finished, and it found nobody. */
  function ShowsNoUsersFound(trigger: string, users: seq<UserRow>, isLoading: bool): (r: bool)
    ensures r ==> SearchEnabled(trigger) && |users| == 0
    ensures r <==> trigger != "" && users == [] && !isLoading
  {
    trigger != "" && |users| == 0 && !isLoading
  }

  /** "No users found" only ever answers a search for something other than
      white space. */
  lemma NoUsersMeansNonBlankSearch(searchText: string, users: seq<UserRow>)
    ensures ShowsNoUsersFound(SearchTrigger(searchText), users, false) ==> !AllWhitespace(searchText)
  {
  }

  /** The search query for the current `triggerSearch`. It is enabled only for
      a non-empty trigger, so it stays `NotRun` exactly for the empty one;
      otherwise it is fetching for the first time, has the server's rows, or
      has failed. */
  datatype SearchQuery = NotRun | Searching | Found(rows: seq<UserRow>) | SearchFailed

  predicate ConsistentSearch(trigger: string, q: SearchQuery) {
    q.NotRun? <==> trigger == ""
  }

  /** `data: users = []`. */
  function UsersOf(q: SearchQuery): (users: seq<UserRow>)
    ensures !q.Found? ==> users == []
  {
    if q.Found? then q.rows else []
  }

  /** `isLoading`: fetching with no rows yet. */
  predicate IsLoadingOf(q: SearchQuery) {
    q.Searching?
  }

  /** The four blocks under the search box. */
  datatype Panel = SearchPrompt | SearchingNote | NoUsersFound | ResultsTable

  /** The blocks rendered, in page order, each behind its own condition: the
      prompt when nothing was searched, "Searching..." while loading, "No users
      found", and the table when there are rows. */
  function PanelsShown(trigger: string, users: seq<UserRow>, isLoading: bool): (r: seq<Panel>)
    ensures |r| <= 4
    ensures NoUsersFound in r ==> SearchPrompt !in r && ResultsTable !in r
  {
    (if trigger == "" then [SearchPrompt] else [])
    + (if isLoading then [SearchingNote] else [])
    + (if ShowsNoUsersFound(trigger, users, isLoading) then [NoUsersFound] else [])
    + (if |users| > 0 then [ResultsTable] else [])
  }

  /** The block each query state should show. */
  function ExpectedPanel(q: SearchQuery): Panel {
    match q
    case NotRun => SearchPrompt
    case Searching => SearchingNote
    case SearchFailed => NoUsersFound
    case Found(rows) => if rows == [] then NoUsersFound else ResultsTable
  }

  /** The four conditions never overlap and never all fail: for every state the
      query can be in, exactly one block is shown, and it is the expected one.
      A failed search reads as "No users found". */
  lemma ExactlyOnePanel(trigger: string, q: SearchQuery)
    requires ConsistentSearch(trigger, q)
    ensures PanelsShown(trigger, UsersOf(q), IsLoadingOf(q)) == [ExpectedPanel(q)]
  {
  }
}

=== FILE: my_earnings.dfy ===
/** The earnings screen: completed parcels filtered by period, and the three
    summary totals. The calendar test "same day/week/month/year as now" is
    supplied by the caller. */
module MyEarnings {
  import opened Optional
  import opened Seqs
  import opened Earnings

  datatype Period = Day | Week | Month | Year

  /** The filter buttons: "today", "week", "month" and "year" select a period;
      "overall", and any other value, selects none. */
  function PeriodOf(filter: string): (r: Option<Period>)
    ensures r == Some(Day) <==> filter == "today"
    ensures r == Some(Week) <==> filter == "week"
    ensures r == Some(Month) <==> filter == "month"
    ensures r == Some(Year) <==> filter == "year"
    ensures r == None <==> filter !in {"today", "week", "month", "year"}
  {
    if filter == "today" then Some(Day)
    else if filter == "week" then Some(Week)
    else if filter == "month" then Some(Month)
    else if filter == "year" then Some(Year)
    else None
  }

  predicate HasValidDate(p: CompletedParcel) {
    p.deliveredAt.Some?
  }

  /** The test applied to each parcel: an invalid delivery date always fails;
      otherwise a period filter asks whether the date falls in the same period
      as now, and "overall" keeps it. */
  predicate Keep(p: CompletedParcel, filter: string, samePeriodAsNow: (Period, int) -> bool) {
    && p.deliveredAt.Some?
    && match PeriodOf(filter)
       case None => true
       case Some(unit) => samePeriodAsNow(unit, p.deliveredAt.value)
  }

  /** `filteredParcels`. */
  function FilteredParcels(ps: seq<CompletedParcel>, filter: string,
                           samePeriodAsNow: (Period, int) -> bool): (r: seq<CompletedParcel>)
    ensures IsSubsequence(r, ps)
    ensures forall p :: p in r ==> p in ps && HasValidDate(p)
    ensures forall p :: p in ps && HasValidDate(p) && PeriodOf(filter).None? ==> p in r
    ensures forall p :: p in ps && HasValidDate(p) && PeriodOf(filter).Some? ==>
                          (p in r <==> samePeriodAsNow(PeriodOf(filter).value, p.deliveredAt.value))
  {
    Filter(ps, p => Keep(p, filter, samePeriodAsNow))
  }

  /** A period filter only ever narrows the "overall" list. */
  lemma PeriodNarrowsOverall(ps: seq<CompletedParcel>, filter: string, samePeriodAsNow: (Period, int) -> bool)
    ensures forall p :: p in FilteredParcels(ps, filter, samePeriodAsNow) ==>
                          p in FilteredParcels(ps, "overall", samePeriodAsNow)
  {
  }

  datatype Summary = Summary(totalEarnings: real, totalCashedOut: real, totalPending: real)

  /** The three summary cards over the filtered parcels. */
  function Summarize(ps: seq<CompletedParcel>, filter: string,
                     samePeriodAsNow: (Period, int) -> bool): (s: Summary)
    ensures var shown := FilteredParcels(ps, filter, samePeriodAsNow);
            && s.totalEarnings == Sum(shown, Earning)
            && s.totalCashedOut == Sum(Filter(shown, IsCashedOut), Earning)
            && s.totalPending == Sum(Filter(shown, IsAvailable), Earning)
  {
    var shown := FilteredParcels(ps, filter, samePeriodAsNow);
    var totalEarnings := Sum(shown, Earning);
    var totalCashedOut := Sum(Filter(shown, IsCashedOut), Earning);
    SumPartition(shown, Earning, IsCashedOut, IsAvailable);
    Summary(totalEarnings, totalCashedOut, totalEarnings - totalCashedOut)
  }

  /** With non-negative charges the cards are ordered: cashed out and pending
      each lie between 0 and the total. */
  lemma SummaryBounds(ps: seq<CompletedParcel>, filter: string, samePeriodAsNow: (Period, int) -> bool)
    requires NonNegativeCharges(ps)
    ensures var s := Summarize(ps, filter, samePeriodAsNow);
            && 0.0 <= s.totalCashedOut <= s.totalEarnings
            && 0.0 <= s.totalPending <= s.totalEarnings
  {
    var shown := FilteredParcels(ps, filter, samePeriodAsNow);
    forall p | p in shown ensures Earning(p) >= 0.0 {
      EarningShare(p);
    }
    SumFilterAtMost(shown, Earning, IsCashedOut);
    SumFilterAtMost(shown, Earning, IsAvailable);
  }

  /** Under "overall" the available total is the one the completed-deliveries
      screen computes over the parcels with a valid date. */
  lemma OverallPendingMatchesAvailable(ps: seq<CompletedParcel>, samePeriodAsNow: (Period, int) -> bool)
    requires forall p :: p in ps ==> HasValidDate(p)
    ensures FilteredParcels(ps, "overall", samePeriodAsNow) == ps
    ensures Summarize(ps, "overall", samePeriodAsNow).totalPending == Sum(Filter(ps, IsAvailable), Earning)
  {
    FilterKeepsAll(ps, p => Keep(p, "overall", samePeriodAsNow));
  }
}

=== FILE: optional.dfy ===
/** A value that may be absent: an `undefined` field, a `null`, or a JavaScript
    value that is falsy where the code writes `x || fallback`. */
module Optional {

  datatype Option<+T> = None | Some(value: T) {

    /** The value, or `fallback` when absent: the model of `x || fallback`. */
    function GetOr(fallback: T): T {
      match this
      case Some(v) => v
      case None => fallback
    }
  }
}

=== FILE: payment_history.dfy ===
/** The payment-history screen: search and date-range filters over the
    user's payments, the count and total of what is shown, and the reset
    button. Instants are milliseconds since the epoch; a date filter is a
    day number counted from the epoch. */
module PaymentHistory {
  import opened Optional
  import opened Seqs
  import opened Text

  /** The `paidAt` field as the date filter sees it: falsy (absent, empty or
      0), a string that does not parse as a date, or an instant. */
  datatype PaidAt = Falsy | Unparseable | At(ms: int)

  /** A payment record. */
  datatype Payment = Payment(transactionId: Option<string>, paidAt: PaidAt, amount: Option<real>)

  /** The three filter inputs; an empty date input is `None`. */
  datatype Filters = Filters(search: string, fromDate: Option<int>, toDate: Option<int>)

  const MsPerDay: int := 86_400_000
  /** 23:59:59 after midnight. */
  const EndOfDayOffset: int := 86_399_000

  /** `new Date(fromDate)`: midnight at the start of the day. */
  function DayStart(day: int): int {
    day * MsPerDay
  }

  /** `new Date(toDate + "T23:59:59")`. */
  function DayEnd(day: int): int {
    day * MsPerDay + EndOfDayOffset
  }

  /** The number a relational comparison sees for `paymentDate`: `null` for a
      falsy `paidAt` compares as 0, an Invalid Date compares as `NaN`
      (`None`), which fails every comparison, and a valid date as its instant. */
  function ComparedInstant(p: Payment): (r: Option<int>)
    ensures p.paidAt.Falsy? ==> r == Some(0)
    ensures r.None? <==> p.paidAt.Unparseable?
    ensures p.paidAt.At? ==> r == Some(p.paidAt.ms)
  {
    match p.paidAt
    case Falsy => Some(0)
    case Unparseable => None
    case At(ms) => Some(ms)
  }

  /** `transactionId?.toLowerCase().includes(search.toLowerCase())`. */
  predicate MatchesSearch(p: Payment, search: string) {
    p.transactionId.Some? && Includes(Lower(p.transactionId.value), Lower(search))
  }

  predicate MatchesFrom(p: Payment, fromDate: Option<int>) {
    fromDate.None? || (ComparedInstant(p).Some? && ComparedInstant(p).value >= DayStart(fromDate.value))
  }

  predicate MatchesTo(p: Payment, toDate: Option<int>) {
    toDate.None? || (ComparedInstant(p).Some? && ComparedInstant(p).value <= DayEnd(toDate.value))
  }

  predicate Matches(p: Payment, f: Filters) {
    MatchesSearch(p, f.search) && MatchesFrom(p, f.fromDate) && MatchesTo(p, f.toDate)
  }

  /** `filteredPayments`: the payments passing all three filters, in order. */
  function FilteredPayments(ps: seq<Payment>, f: Filters): (r: seq<Payment>)
    ensures IsSubsequence(r, ps)
    ensures forall p :: p in r <==> p in ps && Matches(p, f)
  {
    Filter(ps, p => Matches(p, f))
  }

  /** `Number(payment.amount || 0)`. */
  function Amount(p: Payment): real {
    p.amount.GetOr(0.0)
  }

  /** The statistics card: the number of payments shown and the sum of their
      amounts, a missing amount counting as 0. */
  method Totals(ps: seq<Payment>, f: Filters) returns (count: nat, totalAmount: real)
    ensures count == |FilteredPayments(ps, f)|
    ensures totalAmount == Sum(FilteredPayments(ps, f), Amount)
  {
    var shown := FilteredPayments(ps, f);
    count := |shown|;
    totalAmount := 0.0;
    var i := 0;
    while i < |shown|
      invariant 0 <= i <= |shown|
      invariant totalAmount == Sum(shown[..i], Amount)
    {
      SumSnoc(shown[..i], shown[i], Amount);
      assert shown[..i + 1] == shown[..i] + [shown[i]];
      totalAmount := totalAmount + Amount(shown[i]);
      i := i + 1;
    }
    assert shown[..i] == shown;
  }

  /** An empty search matches exactly the payments that have a transaction id. */
  lemma EmptySearchNeedsOnlyAnId(p: Payment)
    ensures MatchesSearch(p, "") <==> p.transactionId.Some?
  {
    if p.transactionId.Some? {
      IncludesEmpty(Lower(p.transactionId.value));
    }
  }

  /** Search ignores ASCII case: a transaction id matches its own upper- or
      lower-cased spelling. */
  lemma SearchIgnoresCase(id: string, paidAt: PaidAt, amount: Option<real>)
    ensures MatchesSearch(Payment(Some(id), paidAt, amount), Upper(id))
    ensures MatchesSearch(Payment(Some(id), paidAt, amount), Lower(id))
  {
    var l := Lower(id);
    LowerForgetsCase(id);
    assert StartsWith(l, l);
  }

  /** Both date bounds are inclusive: a payment at the first millisecond of
      the from-day and one at 23:59:59.000 of the to-day pass; one a
      millisecond later than that does not. */
  lemma DateBoundsInclusive(id: string, day: int, amount: Option<real>)
    ensures MatchesFrom(Payment(Some(id), At(DayStart(day)), amount), Some(day))
    ensures MatchesTo(Payment(Some(id), At(DayEnd(day)), amount), Some(day))
    ensures !MatchesTo(Payment(Some(id), At(DayEnd(day) + 1), amount), Some(day))
    ensures !MatchesFrom(Payment(Some(id), At(DayStart(day) - 1), amount), Some(day))
  {
  }

  /** A payment without a date is compared as the epoch: a to-bound on or
      after 1 January 1970 keeps it, a from-bound after that day drops it.
      A payment whose date does not parse is dropped by either bound and
      kept only while both are empty. */
  lemma UndatedPayments(p: Payment, bound: Option<int>)
    ensures p.paidAt.Falsy? && bound.Some? ==>
              (MatchesFrom(p, bound) <==> bound.value <= 0) && (MatchesTo(p, bound) <==> bound.value >= 0)
    ensures p.paidAt.Unparseable? ==> (MatchesFrom(p, bound) <==> bound.None?) && (MatchesTo(p, bound) <==> bound.None?)
  {
  }

  /** Adding a filter never shows more payments. */
  lemma NarrowingFilters(ps: seq<Payment>, search: string, fromDate: Option<int>, toDate: Option<int>)
    ensures forall p :: p in FilteredPayments(ps, Filters(search, fromDate, toDate)) ==>
                          p in FilteredPayments(ps, Filters(search, None, None))
  {
  }

  /** The reset button is disabled exactly when every filter is empty. */
  predicate ResetDisabled(f: Filters) {
    f.search == "" && f.fromDate.None? && f.toDate.None?
  }

  /** Resetting clears all three filters. */
  function Reset(f: Filters): (r: Filters)
    ensures ResetDisabled(r)
  {
    Filters("", None, None)
  }

  /** After a reset the list shows exactly the payments that have a
      transaction id, in their original order. */
  lemma ResetShowsAllWithId(ps: seq<Payment>, f: Filters)
    ensures FilteredPayments(ps, Reset(f)) == Filter(ps, (p: Payment) => p.transactionId.Some?)
  {
    forall p | true ensures Matches(p, Reset(f)) == p.transactionId.Some? {
      EmptySearchNeedsOnlyAnId(p);
    }
    FilterSameAs(ps, p => Matches(p, Reset(f)), (p: Payment) => p.transactionId.Some?);
  }
}

=== FILE: pricing.dfy ===
/** The delivery-charge rule of the booking form. */
module Pricing {
  import opened Optional

  /** The booking form as submitted. `parcelType` is the raw radio value
      ("Document" or "Non-Document"); `parcelWeight` is `None` when the field
      is missing, empty or not a number. The other fields pass through. */
  datatype ParcelForm = ParcelForm(
    parcelType: string,
    parcelName: string,
    parcelWeight: Option<real>,
    senderName: string,
    senderFullAddress: string,
    senderContact: string,
    senderRegion: string,
    senderDistrict: string,
    senderArea: string,
    senderInstruction: string,
    receiverName: string,
    receiverFullAddress: string,
    receiverContact: string,
    receiverRegion: string,
    receiverDistrict: string,
    receiverArea: string,
    receiverInstruction: string)

  datatype PriceBreakdown = PriceBreakdown(base: real, extra: real, total: real, isWithinCity: bool)

  const DocumentType: string := "Document"
  const DocumentWithinCity: real := 60.0
  const DocumentOutsideCity: real := 80.0
  const ParcelWithinCity: real := 110.0
  const ParcelOutsideCity: real := 150.0
  /** Kilograms included in the base price of a non-document parcel. */
  const IncludedWeight: real := 3.0
  const PerExtraKg: real := 40.0
  const OutsideCitySurcharge: real := 40.0

  /** `Number(parcelWeight) || 0`: a missing or non-numeric weight counts as 0. */
  function EffectiveWeight(w: Option<real>): (r: real)
    ensures w.None? ==> r == 0.0
    ensures w.Some? ==> r == w.value
  {
    w.GetOr(0.0)
  }

  function CalculatePrice(f: ParcelForm): (p: PriceBreakdown)
    ensures p.total == p.base + p.extra
    ensures p.isWithinCity <==> f.senderDistrict == f.receiverDistrict
    ensures f.parcelType == DocumentType ==>
              p.extra == 0.0 && p.base == (if p.isWithinCity then 60.0 else 80.0)
    ensures f.parcelType != DocumentType ==> p.base == (if p.isWithinCity then 110.0 else 150.0)
    ensures f.parcelType != DocumentType && EffectiveWeight(f.parcelWeight) <= 3.0 ==> p.extra == 0.0
    ensures f.parcelType != DocumentType && EffectiveWeight(f.parcelWeight) > 3.0 ==>
              p.extra == (EffectiveWeight(f.parcelWeight) - 3.0) * 40.0 + (if p.isWithinCity then 0.0 else 40.0)
  {
    var weight := EffectiveWeight(f.parcelWeight);
    var isWithinCity := f.senderDistrict == f.receiverDistrict;
    var base :=
      if f.parcelType == DocumentType then (if isWithinCity then DocumentWithinCity else DocumentOutsideCity)
      else (if isWithinCity then ParcelWithinCity else ParcelOutsideCity);
    var extra :=
      if f.parcelType == DocumentType || weight <= IncludedWeight then 0.0
      else (weight - IncludedWeight) * PerExtraKg + (if isWithinCity then 0.0 else OutsideCitySurcharge);
    PriceBreakdown(base, extra, base + extra, isWithinCity)
  }

  /** The weight field plays no part in the price of a document. */
  lemma DocumentPriceIgnoresWeight(f: ParcelForm, w: Option<real>)
    requires f.parcelType == DocumentType
    ensures CalculatePrice(f.(parcelWeight := w)) == CalculatePrice(f)
  {
  }

  /** A missing or unreadable weight is priced exactly like an explicit 0 kg,
      hence like any parcel of at most 3 kg. */
  lemma MissingWeightPricedAsLight(f: ParcelForm, w: real)
    requires f.parcelWeight.None?
    requires w <= 3.0
    ensures CalculatePrice(f) == CalculatePrice(f.(parcelWeight := Some(w)))
  {
  }

  /** A heavier parcel never costs less. */
  lemma PriceMonotoneInWeight(f: ParcelForm, w1: real, w2: real)
    requires w1 <= w2
    ensures CalculatePrice(f.(parcelWeight := Some(w1))).total
            <= CalculatePrice(f.(parcelWeight := Some(w2))).total
  {
  }

  /** Sending across districts never costs less than within one, all else equal. */
  lemma OutsideCityNeverCheaper(f: ParcelForm, g: ParcelForm)
    requires f.parcelType == g.parcelType && f.parcelWeight == g.parcelWeight
    requires f.senderDistrict == f.receiverDistrict
    ensures CalculatePrice(f).total <= CalculatePrice(g).total
  {
  }

  /** Every parcel costs at least the cheapest base price, 60. */
  lemma PriceAtLeastMinimum(f: ParcelForm)
    ensures CalculatePrice(f).total >= DocumentWithinCity
  {
  }

  function SampleForm(parcelType: string, weight: Option<real>, from: string, to: string): ParcelForm {
    ParcelForm(parcelType, "Gift", weight, "S", "Addr", "017", "Dhaka", from, "Area", "-",
               "R", "Addr", "018", "Dhaka", to, "Area", "-")
  }

  /** The worked examples of the pricing table. */
  lemma PriceExamples()
    ensures CalculatePrice(SampleForm("Document", None, "Dhaka", "Dhaka")) == PriceBreakdown(60.0, 0.0, 60.0, true)
    ensures CalculatePrice(SampleForm("Document", None, "Dhaka", "Gazipur")) == PriceBreakdown(80.0, 0.0, 80.0, false)
    ensures CalculatePrice(SampleForm("Non-Document", Some(2.0), "Dhaka", "Dhaka")) == PriceBreakdown(110.0, 0.0, 110.0, true)
    ensures CalculatePrice(SampleForm("Non-Document", Some(5.0), "Dhaka", "Dhaka")) == PriceBreakdown(110.0, 80.0, 190.0, true)
    ensures CalculatePrice(SampleForm("Non-Document", Some(5.0), "Dhaka", "Gazipur")) == PriceBreakdown(150.0, 120.0, 270.0, false)
    ensures CalculatePrice(SampleForm("Non-Document", Some(3.5), "Dhaka", "Dhaka")).extra == 20.0
  {
  }
}

=== FILE: rider_application.dfy ===
/** The "Be a Rider" application: field validation, the region and district
    options, and the record that is posted. */
module RiderApplication {
  import opened Optional
  import opened Text
  import opened ServiceCenters

  /** The form values. `age` is `None` when the input is empty. */
  datatype RiderForm = RiderForm(
    age: Option<real>,
    phone: string,
    region: string,
    district: string,
    bikeBrand: string,
    bikeModel: string,
    bikeRegistration: string,
    nid: string,
    experience: string)

  /** A field that failed validation, with the message shown under it. */
  datatype FieldError = FieldError(field: string, message: string)

  const MinimumAge: real := 18.0
  const MinPhoneDigits: nat := 10
  const MaxPhoneDigits: nat := 15

  /** The age rule: required, then at least 18. */
  function AgeError(age: Option<real>): (r: Option<string>)
    ensures r.None? <==> age.Some? && age.value >= 18.0
    ensures age.None? ==> r == Some("Age is required")
  {
    if age.None? then Some("Age is required")
    else if age.value < MinimumAge then Some("Minimum age is 18")
    else None
  }

  /** The declarative reading of `/^[0-9]{10,15}$/`. */
  predicate IsValidPhone(s: string) {
    MinPhoneDigits <= |s| <= MaxPhoneDigits && forall i :: 0 <= i < |s| ==> IsAsciiDigit(s[i])
  }

  /** The pattern check as a scan: count the leading digits and compare. */
  method MatchesPhonePattern(s: string) returns (ok: bool)
    ensures ok <==> IsValidPhone(s)
  {
    var i := 0;
    while i < |s| && IsAsciiDigit(s[i])
      invariant 0 <= i <= |s|
      invariant forall k :: 0 <= k < i ==> IsAsciiDigit(s[k])
    {
      i := i + 1;
    }
    ok := i == |s| && MinPhoneDigits <= i <= MaxPhoneDigits;
  }

  /** The phone rule: required, then the pattern. */
  function PhoneError(phone: string): (r: Option<string>)
    ensures r.None? <==> IsValidPhone(phone)
    ensures phone == "" ==> r == Some("Phone is required")
  {
    if phone == "" then Some("Phone is required")
    else if !IsValidPhone(phone) then Some("Enter a valid phone number")
    else None
  }

  /** A `required` rule: the message exactly for an empty value. */
  function RequiredError(value: string, message: string): (r: Option<string>)
    ensures r.None? <==> value != ""
  {
    if value == "" then Some(message) else None
  }

  /** The message of one field, as a list of at most one error. */
  function ErrorOf(field: string, check: Option<string>): (r: seq<FieldError>)
    ensures r == [] <==> check.None?
    ensures r != [] ==> r == [FieldError(field, check.value)]
  {
    match check
    case None => []
    case Some(m) => [FieldError(field, m)]
  }

  /** Every field's rule, in form order. Experience is optional, so it has no rule. */
  function Validate(f: RiderForm): (errors: seq<FieldError>)
    ensures errors == [] <==>
              && f.age.Some? && f.age.value >= 18.0
              && IsValidPhone(f.phone)
              && f.region != "" && f.district != ""
              && f.bikeBrand != "" && f.bikeModel != "" && f.bikeRegistration != "" && f.nid != ""
  {
    var personal := ErrorOf("age", AgeError(f.age)) + ErrorOf("phone", PhoneError(f.phone));
    var area := ErrorOf("region", RequiredError(f.region, "Region is required"))
                + ErrorOf("district", RequiredError(f.district, "District is required"));
    var bike := ErrorOf("bikeBrand", RequiredError(f.bikeBrand, "Bike brand is required"))
                + ErrorOf("bikeModel", RequiredError(f.bikeModel, "Bike model is required"))
                + ErrorOf("bikeRegistration", RequiredError(f.bikeRegistration, "Registration number is required"))
                + ErrorOf("nid", RequiredError(f.nid, "NID is required"));
    personal + area + bike
  }

  /** The experience field never decides whether an application is valid. */
  lemma ExperienceIsOptional(f: RiderForm, experience: string)
    ensures Validate(f) == [] <==> Validate(f.(experience := experience)) == []
  {
  }

  /** The posted record: the form, the signed-in user's name and email in
      place of anything the form holds, the age as a number, status "pending". */
  datatype RiderRecord = RiderRecord(
    form: RiderForm,
    name: Option<string>,
    email: Option<string>,
    age: real,
    status: string,
    appliedAt: int)

  /** `onSubmit`, which the form library calls only once every rule passes. */
  function Submit(f: RiderForm, displayName: Option<string>, email: Option<string>, now: int): (r: Option<RiderRecord>)
    ensures r.Some? <==> Validate(f) == []
    ensures r.Some? ==> && r.value.status == "pending"
                        && r.value.name == displayName && r.value.email == email
                        && r.value.age >= 18.0 && r.value.form == f
                        && f.age.Some? && r.value.age == f.age.value
                        && r.value.appliedAt == now
  {
    if Validate(f) == [] then
      Some(RiderRecord(f, displayName, email, f.age.GetOr(0.0), "pending", now))
    else None
  }

  /** The two selects agree: a region is offered exactly when choosing it
      offers at least one district, and the district select stays empty for a
      region no centre serves, the placeholder "" included when no centre has
      an empty region. */
  lemma ApplicationOptions(centers: seq<ServiceCenter>, region: string)
    ensures region in RegionOptions(centers) <==> DistrictsInRegion(centers, region) != []
    ensures DistrictsInRegion(centers, region) == [] <==> forall c :: c in centers ==> c.region != region
    ensures RegionOptions(centers) == [] <==> centers == []
  {
    if centers != [] {
      assert centers[0] in centers;
      assert centers[0].region in RegionOptions(centers);
    }
    if DistrictsInRegion(centers, region) != [] {
      var d := DistrictsInRegion(centers, region)[0];
      assert d in DistrictsInRegion(centers, region);
    }
  }
}

=== FILE: seqs.dfy ===
/** The array operations the screens use: `filter`, `reduce` with `+`, and the
    `[...new Set(xs)]` idiom, together with the facts the rest of the model
    relies on. */
module Seqs {

  /** `a` can be obtained from `b` by deleting elements: an order-preserving sublist. */
  predicate IsSubsequence<T(==)>(a: seq<T>, b: seq<T>)
    decreases |b|
  {
    || |a| == 0
    || (&& |b| > 0
        && (|| (a[0] == b[0] && IsSubsequence(a[1..], b[1..]))
            || IsSubsequence(a, b[1..])))
  }

  /** No value occurs twice. */
  predicate NoDuplicates<T(==)>(xs: seq<T>) {
    forall i, j :: 0 <= i < j < |xs| ==> xs[i] != xs[j]
  }

  /** `Array.prototype.filter`: the elements satisfying `p`, in their original order. */
  function Filter<T(==,!new)>(xs: seq<T>, p: T -> bool): (r: seq<T>)
    ensures |r| <= |xs|
    ensures forall x :: x in r <==> x in xs && p(x)
    ensures IsSubsequence(r, xs)
  {
    if |xs| == 0 then []
    else
      var rest := Filter(xs[1..], p);
      assert forall x :: x in xs <==> x == xs[0] || x in xs[1..];
      if p(xs[0]) then [xs[0]] + rest else rest
  }

  /** Sum of `f` over the elements: `xs.reduce((s, x) => s + f(x), 0)`.
      Real addition is associative, so the fold direction does not matter. */
  function Sum<T>(xs: seq<T>, f: T -> real): real
  {
    if |xs| == 0 then 0.0 else f(xs[0]) + Sum(xs[1..], f)
  }

  /** `[...new Set(xs)]`: each value once, at the position of its first occurrence. */
  function Dedup<T(==,!new)>(xs: seq<T>): (r: seq<T>)
    ensures NoDuplicates(r)
    ensures forall x :: x in r <==> x in xs
    ensures IsSubsequence(r, xs)
    decreases |xs|
  {
    if |xs| == 0 then []
    else
      var init := xs[..|xs| - 1];
      var last := xs[|xs| - 1];
      var d := Dedup(init);
      assert xs == init + [last];
      SubsequenceExtend(d, init, last);
      if last in d then d else d + [last]
  }

  /** The order of `Dedup`: extending the list by one value appends that value
      when it is new and changes nothing when it was already seen. Together with
      `Dedup([]) == []` this fixes the result to first-occurrence order. */
  lemma DedupSnoc<T(!new)>(xs: seq<T>, x: T)
    ensures Dedup(xs + [x]) == Dedup(xs) + (if x in xs then [] else [x])
  {
    var ys := xs + [x];
    assert ys[..|ys| - 1] == xs;
  }

  /** `Dedup` keeps a list without repetitions as it is. */
  lemma {:induction false} DedupKeepsDistinct<T(!new)>(xs: seq<T>)
    requires NoDuplicates(xs)
    ensures Dedup(xs) == xs
    decreases |xs|
  {
    if |xs| > 0 {
      var init := xs[..|xs| - 1];
      DedupKeepsDistinct(init);
      assert xs == init + [xs[|xs| - 1]];
      DedupSnoc(init, xs[|xs| - 1]);
    }
  }

  /** Appending the same element to both sides, or only to the larger one,
      keeps a sublist a sublist. */
  lemma {:induction false} SubsequenceExtend<T>(a: seq<T>, b: seq<T>, x: T)
    requires IsSubsequence(a, b)
    ensures IsSubsequence(a, b + [x])
    ensures IsSubsequence(a + [x], b + [x])
    decreases |b|
  {
    if |a| == 0 {
      assert a + [x] == [x];
      SingletonSubsequence(b, x);
    } else {
      assert (b + [x])[0] == b[0] && (b + [x])[1..] == b[1..] + [x];
      assert (a + [x])[0] == a[0] && (a + [x])[1..] == a[1..] + [x];
      if a[0] == b[0] && IsSubsequence(a[1..], b[1..]) {
        SubsequenceExtend(a[1..], b[1..], x);
      } else {
        SubsequenceExtend(a, b[1..], x);
      }
    }
  }

  lemma {:induction false} SingletonSubsequence<T>(b: seq<T>, x: T)
    ensures IsSubsequence([x], b + [x])
    decreases |b|
  {
    if |b| == 0 {
      assert b + [x] == [x];
      assert IsSubsequence([x][1..], (b + [x])[1..]);
    } else {
      assert (b + [x])[1..] == b[1..] + [x];
      SingletonSubsequence(b[1..], x);
    }
  }

  /** A sublist can only contain values of the list it was taken from. */
  lemma {:induction false} SubsequenceMembers<T>(a: seq<T>, b: seq<T>)
    requires IsSubsequence(a, b)
    ensures forall x :: x in a ==> x in b
    decreases |b|
  {
    if |a| > 0 {
      if a[0] == b[0] && IsSubsequence(a[1..], b[1..]) {
        SubsequenceMembers(a[1..], b[1..]);
        assert forall x :: x in a ==> x == a[0] || x in a[1..];
      } else {
        SubsequenceMembers(a, b[1..]);
      }
    }
  }

  /** Filtering a list extended by one element extends the filtered list by
      that element exactly when it passes. */
  lemma {:induction false} FilterSnoc<T(!new)>(xs: seq<T>, x: T, p: T -> bool)
    ensures Filter(xs + [x], p) == Filter(xs, p) + (if p(x) then [x] else [])
    decreases |xs|
  {
    if |xs| == 0 {
      assert xs + [x] == [x];
    } else {
      assert (xs + [x])[0] == xs[0];
      assert (xs + [x])[1..] == xs[1..] + [x];
      FilterSnoc(xs[1..], x, p);
    }
  }

  /** The sum over a concatenation is the sum of the sums. */
  lemma {:induction false} SumAppend<T>(a: seq<T>, b: seq<T>, f: T -> real)
    ensures Sum(a + b, f) == Sum(a, f) + Sum(b, f)
    decreases |a|
  {
    if |a| == 0 {
      assert a + b == b;
    } else {
      assert (a + b)[0] == a[0];
      assert (a + b)[1..] == a[1..] + b;
      SumAppend(a[1..], b, f);
    }
  }

  /** One step of a left-to-right `reduce`. */
  lemma SumSnoc<T>(xs: seq<T>, x: T, f: T -> real)
    ensures Sum(xs + [x], f) == Sum(xs, f) + f(x)
  {
    SumAppend(xs, [x], f);
    assert Sum([x], f) == f(x) + Sum([x][1..], f);
  }

  /** Summing over the elements that pass `p` and over those that pass its
      complement `q` gives the sum over all of them. */
  lemma {:induction false} SumPartition<T(!new)>(xs: seq<T>, f: T -> real, p: T -> bool, q: T -> bool)
    requires forall x :: q(x) == !p(x)
    ensures Sum(xs, f) == Sum(Filter(xs, p), f) + Sum(Filter(xs, q), f)
    decreases |xs|
  {
    if |xs| > 0 {
      SumPartition(xs[1..], f, p, q);
    }
  }

  /** Non-negative terms give a non-negative sum. */
  lemma {:induction false} SumNonNegative<T>(xs: seq<T>, f: T -> real)
    requires forall x :: x in xs ==> f(x) >= 0.0
    ensures Sum(xs, f) >= 0.0
    decreases |xs|
  {
    if |xs| > 0 {
      assert forall x :: x in xs[1..] ==> x in xs;
      SumNonNegative(xs[1..], f);
    }
  }

  /** Summing a pointwise smaller function gives a smaller sum. */
  lemma {:induction false} SumMonotone<T>(xs: seq<T>, f: T -> real, g: T -> real)
    requires forall x :: x in xs ==> f(x) <= g(x)
    ensures Sum(xs, f) <= Sum(xs, g)
    decreases |xs|
  {
    if |xs| > 0 {
      assert forall x :: x in xs[1..] ==> x in xs;
      SumMonotone(xs[1..], f, g);
    }
  }

  /** With non-negative terms, the sum over a filtered list is at most the
      sum over the whole list. */
  lemma SumFilterAtMost<T(!new)>(xs: seq<T>, f: T -> real, p: T -> bool)
    requires forall x :: x in xs ==> f(x) >= 0.0
    ensures 0.0 <= Sum(Filter(xs, p), f) <= Sum(xs, f)
  {
    var q := x => !p(x);
    SumPartition(xs, f, p, q);
    SumNonNegative(Filter(xs, p), f);
    SumNonNegative(Filter(xs, q), f);
  }

  /** Filtering by a test every element passes changes nothing. */
  lemma {:induction false} FilterKeepsAll<T(!new)>(xs: seq<T>, p: T -> bool)
    requires forall x :: x in xs ==> p(x)
    ensures Filter(xs, p) == xs
    decreases |xs|
  {
    if |xs| > 0 {
      assert forall x :: x in xs[1..] ==> x in xs;
      FilterKeepsAll(xs[1..], p);
    }
  }

  /** Filtering by two tests that agree everywhere gives the same list. */
  lemma {:induction false} FilterSameAs<T(!new)>(xs: seq<T>, p: T -> bool, q: T -> bool)
    requires forall x :: p(x) == q(x)
    ensures Filter(xs, p) == Filter(xs, q)
    decreases |xs|
  {
    if |xs| > 0 {
      FilterSameAs(xs[1..], p, q);
    }
  }
}

=== FILE: service_centers.dfy ===
/** The static service-centre table and the select-option lists the booking
    form and the rider application derive from it. */
module ServiceCenters {
  import opened Seqs
  import opened Optional

  /** One row of the service-centre table. A row without `covered_area` is
      represented with an empty list, which `covered_area || []` treats alike. */
  datatype ServiceCenter = ServiceCenter(region: string, district: string, coveredArea: seq<string>)

  function RegionsOf(centers: seq<ServiceCenter>): (r: seq<string>)
    ensures |r| == |centers|
    ensures forall i :: 0 <= i < |centers| ==> r[i] == centers[i].region
  {
    seq(|centers|, i requires 0 <= i < |centers| => centers[i].region)
  }

  function DistrictsOf(centers: seq<ServiceCenter>): (r: seq<string>)
    ensures |r| == |centers|
    ensures forall i :: 0 <= i < |centers| ==> r[i] == centers[i].district
  {
    seq(|centers|, i requires 0 <= i < |centers| => centers[i].district)
  }

  predicate InRegion(c: ServiceCenter, region: string) {
    c.region == region
  }

  /** The region options: every region of the table exactly once, in order of
      first appearance. */
  function RegionOptions(centers: seq<ServiceCenter>): (r: seq<string>)
    ensures NoDuplicates(r)
    ensures forall x :: x in r <==> exists c :: c in centers && c.region == x
  {
    var regions := RegionsOf(centers);
    assert forall c :: c in centers ==> c.region in regions by {
      forall c | c in centers ensures c.region in regions {
        var i :| 0 <= i < |centers| && centers[i] == c;
        assert regions[i] == c.region;
      }
    }
    Dedup(regions)
  }

  /** The districts of the centres in `region`, in table order and with
      repetitions: the district list of the rider application. */
  function DistrictsInRegion(centers: seq<ServiceCenter>, region: string): (r: seq<string>)
    ensures forall x :: x in r <==> exists c :: c in centers && c.region == region && c.district == x
  {
    var inRegion := Filter(centers, c => InRegion(c, region));
    var r := DistrictsOf(inRegion);
    assert forall c :: c in inRegion ==> c.district in r by {
      forall c | c in inRegion ensures c.district in r {
        var i :| 0 <= i < |inRegion| && inRegion[i] == c;
        assert r[i] == c.district;
      }
    }
    assert forall x :: x in r ==> exists c :: c in inRegion && c.district == x by {
      forall x | x in r ensures exists c :: c in inRegion && c.district == x {
        var i :| 0 <= i < |r| && r[i] == x;
        assert inRegion[i] in inRegion;
      }
    }
    r
  }

  /** Reading the districts off a concatenation reads them off each part. */
  lemma DistrictsOfAppend(a: seq<ServiceCenter>, b: seq<ServiceCenter>)
    ensures DistrictsOf(a + b) == DistrictsOf(a) + DistrictsOf(b)
  {
  }

  /** The order of `DistrictsInRegion`: adding a centre at the end of the table
      adds its district at the end of the list when the centre is in the
      region, whether or not that district is already listed. Together with
      the empty table giving the empty list, this fixes the list to table order
      with repetitions kept. */
  lemma DistrictsInRegionSnoc(centers: seq<ServiceCenter>, c: ServiceCenter, region: string)
    ensures DistrictsInRegion([], region) == []
    ensures DistrictsInRegion(centers + [c], region)
            == DistrictsInRegion(centers, region) + (if c.region == region then [c.district] else [])
  {
    var p := (x: ServiceCenter) => InRegion(x, region);
    FilterSnoc(centers, c, p);
    DistrictsOfAppend(Filter(centers, p), if p(c) then [c] else []);
  }

  /** The district options of the booking form: the districts of `region`,
      each once. */
  function DistrictOptions(centers: seq<ServiceCenter>, region: string): (r: seq<string>)
    ensures NoDuplicates(r)
    ensures forall x :: x in r <==> exists c :: c in centers && c.region == region && c.district == x
  {
    Dedup(DistrictsInRegion(centers, region))
  }

  predicate MatchesLocation(c: ServiceCenter, region: string, district: string) {
    c.region == region && c.district == district
  }

  /** `Array.prototype.findIndex` for the centre serving (region, district). */
  function FindCenter(centers: seq<ServiceCenter>, region: string, district: string): (r: Option<nat>)
    ensures r.Some? ==> r.value < |centers| && MatchesLocation(centers[r.value], region, district)
    ensures r.Some? ==> forall j :: 0 <= j < r.value ==> !MatchesLocation(centers[j], region, district)
    ensures r.None? <==> forall j :: 0 <= j < |centers| ==> !MatchesLocation(centers[j], region, district)
  {
    if |centers| == 0 then None
    else if MatchesLocation(centers[0], region, district) then Some(0)
    else
      match FindCenter(centers[1..], region, district)
      case None => None
      case Some(i) => Some(i + 1)
  }

  /** The covered-area options: those of the first centre serving (region,
      district), or none when no centre does. */
  function AreaOptions(centers: seq<ServiceCenter>, region: string, district: string): (r: seq<string>)
    ensures (forall j :: 0 <= j < |centers| ==> !MatchesLocation(centers[j], region, district)) ==> r == []
    ensures forall i :: 0 <= i < |centers| && MatchesLocation(centers[i], region, district)
                        && (forall j :: 0 <= j < i ==> !MatchesLocation(centers[j], region, district))
                        ==> r == centers[i].coveredArea
  {
    match FindCenter(centers, region, district)
    case None => []
    case Some(i) => centers[i].coveredArea
  }

  /** The booking form removes repetitions that the rider application keeps: a
      region with two centres in one district lists that district twice in the
      application and once in the booking form. */
  lemma RiderDistrictsMayRepeat()
    ensures var centers := [ServiceCenter("Dhaka", "Dhaka", ["Mirpur"]),
                            ServiceCenter("Dhaka", "Dhaka", ["Uttara"])];
            DistrictsInRegion(centers, "Dhaka") == ["Dhaka", "Dhaka"]
            && DistrictOptions(centers, "Dhaka") == ["Dhaka"]
  {
    var centers := [ServiceCenter("Dhaka", "Dhaka", ["Mirpur"]),
                    ServiceCenter("Dhaka", "Dhaka", ["Uttara"])];
    assert Filter(centers, c => InRegion(c, "Dhaka")) == centers;
    var d := DistrictsInRegion(centers, "Dhaka");
    assert d == ["Dhaka", "Dhaka"];
    assert d[..1] == ["Dhaka"];
    assert Dedup(d[..1]) == ["Dhaka"] by {
      assert d[..1][..0] == [];
    }
  }
}

=== FILE: testimonials.dfy ===
/** The testimonial carousel on the home page: the active card and its
    previous/next buttons and dots. */
module Testimonials {

  /** The number of testimonials. */
  const Count: nat := 3
  /** The card shown first. */
  const InitialActive: int := 1

  predicate InRange(i: int) {
    0 <= i < Count
  }

  /** The previous button: the card before, wrapping from the first to the last. */
  function Prev(i: int): (r: int)
    ensures InRange(i) ==> InRange(r)
    ensures InRange(i) ==> r == (i - 1) % Count
  {
    if i == 0 then Count - 1 else i - 1
  }

  /** The next button: the card after, wrapping from the last to the first. */
  function Next(i: int): (r: int)
    ensures InRange(i) ==> InRange(r)
    ensures InRange(i) ==> r == (i + 1) % Count
  {
    if i == Count - 1 then 0 else i + 1
  }

  /** Previous and next undo each other, and three steps go round once. */
  lemma PrevNextInverse(i: int)
    requires InRange(i)
    ensures Next(Prev(i)) == i
    ensures Prev(Next(i)) == i
    ensures Next(Next(Next(i))) == i
  {
  }

  /** A dot selects its own card; the dots are only rendered for indices in range. */
  function Dot(index: nat): (r: int)
    requires index < Count
    ensures InRange(r) && r == index
  {
    index
  }

  datatype CarouselEvent = PrevClick | NextClick | DotClick(index: nat)

  predicate WellFormed(e: CarouselEvent) {
    e.DotClick? ==> e.index < Count
  }

  function Apply(i: int, e: CarouselEvent): int
    requires WellFormed(e)
  {
    match e
    case PrevClick => Prev(i)
    case NextClick => Next(i)
    case DotClick(k) => Dot(k)
  }

  function Run(i: int, es: seq<CarouselEvent>): int
    requires forall k :: 0 <= k < |es| ==> WellFormed(es[k])
    decreases |es|
  {
    if |es| == 0 then i else Run(Apply(i, es[0]), es[1..])
  }

  /** Starting from the initial card, every sequence of clicks keeps the
      active card among the testimonials. */
  lemma {:induction false} ActiveStaysInRange(i: int, es: seq<CarouselEvent>)
    requires InRange(i)
    requires forall k :: 0 <= k < |es| ==> WellFormed(es[k])
    ensures InRange(Run(i, es))
    decreases |es|
  {
    if |es| > 0 {
      ActiveStaysInRange(Apply(i, es[0]), es[1..]);
    }
  }

  lemma CarouselStartsInRange()
    ensures InRange(InitialActive)
    ensures Next(InitialActive) == 2 && Prev(InitialActive) == 0
  {
  }
}

=== FILE: text.dfy ===
/** The JavaScript string operations the screens rely on: character classes,
    ASCII case mapping, `trim` and `includes`. */
module Text {

  predicate IsAsciiDigit(c: char) {
    '0' <= c <= '9'
  }

  predicate IsLowerLetter(c: char) {
    'a' <= c <= 'z'
  }

  predicate IsUpperLetter(c: char) {
    'A' <= c <= 'Z'
  }

  /** A digit of `Number.prototype.toString(36)`. */
  predicate IsBase36Lower(c: char) {
    IsAsciiDigit(c) || IsLowerLetter(c)
  }

  /** A character of the class `[0-9A-Z]`. */
  predicate IsBase36Upper(c: char) {
    IsAsciiDigit(c) || IsUpperLetter(c)
  }

  /** `String.prototype.toUpperCase` on one character, for the ASCII range. */
  function UpperChar(c: char): (r: char)
    ensures IsLowerLetter(c) ==> IsUpperLetter(r)
    ensures !IsLowerLetter(c) ==> r == c
  {
    if IsLowerLetter(c) then (c as int - 32) as char else c
  }

  /** `String.prototype.toLowerCase` on one character, for the ASCII range. */
  function LowerChar(c: char): (r: char)
    ensures IsUpperLetter(c) ==> IsLowerLetter(r)
    ensures !IsUpperLetter(c) ==> r == c
  {
    if IsUpperLetter(c) then (c as int + 32) as char else c
  }

  function Upper(s: string): (r: string)
    ensures |r| == |s|
    ensures forall i :: 0 <= i < |s| ==> r[i] == UpperChar(s[i])
  {
    if |s| == 0 then "" else [UpperChar(s[0])] + Upper(s[1..])
  }

  function Lower(s: string): (r: string)
    ensures |r| == |s|
    ensures forall i :: 0 <= i < |s| ==> r[i] == LowerChar(s[i])
  {
    if |s| == 0 then "" else [LowerChar(s[0])] + Lower(s[1..])
  }

  /** Lower-casing forgets an earlier upper-casing: both spellings of a
      string have the same lower-case form, and lower-casing is idempotent. */
  lemma LowerForgetsCase(s: string)
    ensures Lower(Upper(s)) == Lower(s)
    ensures Lower(Lower(s)) == Lower(s)
  {
    var l, ul, ll := Lower(s), Lower(Upper(s)), Lower(Lower(s));
    forall i | 0 <= i < |s|
      ensures ul[i] == l[i] && ll[i] == l[i]
    {
      var c := s[i];
      assert Upper(s)[i] == UpperChar(c);
      assert Lower(s)[i] == LowerChar(c);
    }
  }

  /** The characters `String.prototype.trim` removes: white space and line
      terminators as ECMAScript defines them. */
  predicate IsWhitespace(c: char) {
    || c == '\t' || c == '\n' || c == '\U{000B}' || c == '\U{000C}' || c == '\r'
    || c == ' ' || c == '\U{00A0}' || c == '\U{1680}'
    || ('\U{2000}' <= c <= '\U{200A}')
    || c == '\U{2028}' || c == '\U{2029}' || c == '\U{202F}' || c == '\U{205F}'
    || c == '\U{3000}' || c == '\U{FEFF}'
  }

  /** Every character of `s[lo..hi]` is white space. */
  predicate WhitespaceBetween(s: string, lo: int, hi: int) {
    forall k :: lo <= k < hi && 0 <= k < |s| ==> IsWhitespace(s[k])
  }

  predicate AllWhitespace(s: string) {
    WhitespaceBetween(s, 0, |s|)
  }

  /** Where `trimStart` stops: the first position at or after `from` that
      does not hold white space, or the end of `s`. */
  function SkipLeading(s: string, from: nat): (i: nat)
    requires from <= |s|
    ensures from <= i <= |s|
    ensures WhitespaceBetween(s, from, i)
    ensures i == |s| || !IsWhitespace(s[i])
    decreases |s| - from
  {
    if from < |s| && IsWhitespace(s[from]) then SkipLeading(s, from + 1) else from
  }

  /** Where `trimEnd` stops, scanning down from `hi` but not below `lo`: just
      after the last position that does not hold white space, or `lo`. */
  function SkipTrailing(s: string, lo: nat, hi: nat): (j: nat)
    requires lo <= hi <= |s|
    ensures lo <= j <= hi
    ensures WhitespaceBetween(s, j, hi)
    ensures j == lo || !IsWhitespace(s[j - 1])
    decreases hi
  {
    if lo < hi && IsWhitespace(s[hi - 1]) then SkipTrailing(s, lo, hi - 1) else hi
  }

  /** `String.prototype.trim`: the slice of `s` left after cutting white
      space from both ends. */
  function Trim(s: string): (r: string)
    ensures exists i :: 0 <= i <= |s| - |r| && r == s[i..i + |r|]
                        && WhitespaceBetween(s, 0, i) && WhitespaceBetween(s, i + |r|, |s|)
    ensures |r| == 0 || (!IsWhitespace(r[0]) && !IsWhitespace(r[|r| - 1]))
  {
    var i := SkipLeading(s, 0);
    var j := SkipTrailing(s, i, |s|);
    assert WhitespaceBetween(s, j, |s|);
    s[i..j]
  }

  /** Trimming leaves nothing exactly when the string is all white space. */
  lemma TrimEmptyIffBlank(s: string)
    ensures Trim(s) == "" <==> AllWhitespace(s)
  {
    var i := SkipLeading(s, 0);
    var j := SkipTrailing(s, i, |s|);
    assert Trim(s) == s[i..j];
    if i == j {
      assert WhitespaceBetween(s, 0, i) && WhitespaceBetween(s, i, |s|);
    }
  }

  /** Trimming twice is trimming once. */
  lemma TrimIdempotent(s: string)
    ensures Trim(Trim(s)) == Trim(s)
  {
    var r := Trim(s);
    if |r| > 0 {
      assert SkipLeading(r, 0) == 0;
    }
  }

  /** `needle` is a prefix of `hay`. */
  predicate StartsWith(hay: string, needle: string) {
    |needle| <= |hay| && hay[..|needle|] == needle
  }

  /** `String.prototype.includes`, as a left-to-right scan over start positions. */
  predicate Includes(hay: string, needle: string)
    decreases |hay|
  {
    StartsWith(hay, needle) || (|hay| > 0 && Includes(hay[1..], needle))
  }

  /** `needle` occurs in `hay` starting at position `i`. */
  predicate OccursAt(hay: string, needle: string, i: int) {
    0 <= i <= |hay| - |needle| && hay[i..i + |needle|] == needle
  }

  /** The scan agrees with the declarative reading: `needle` occurs in `hay`
      at some position. */
  lemma {:induction false} IncludesIffOccurs(hay: string, needle: string)
    ensures Includes(hay, needle) <==> exists i :: OccursAt(hay, needle, i)
    decreases |hay|
  {
    if StartsWith(hay, needle) {
      assert OccursAt(hay, needle, 0);
    }
    if |hay| > 0 {
      IncludesIffOccurs(hay[1..], needle);
      if Includes(hay[1..], needle) {
        var i :| OccursAt(hay[1..], needle, i);
        assert OccursAt(hay, needle, i + 1);
      }
      if exists i :: OccursAt(hay, needle, i) {
        var i :| OccursAt(hay, needle, i);
        if i > 0 {
          assert OccursAt(hay[1..], needle, i - 1);
        } else {
          assert StartsWith(hay, needle);
        }
      }
    } else if exists i :: OccursAt(hay, needle, i) {
      var i :| OccursAt(hay, needle, i);
      assert StartsWith(hay, needle);
    }
  }

  /** Every string includes the empty string. */
  lemma IncludesEmpty(hay: string)
    ensures Includes(hay, "")
  {
  }
}

=== FILE: track_parcel.dfy ===
/** The tracking screen: the badge colour of each tracking event and the
    search box that starts a lookup. */
module TrackParcel {
  import DeliveryStatus

  /** The badge classes the status column can carry. */
  datatype BadgeColour = Info | Success | Primary | Warning | Neutral

  const KnownStatuses: seq<string> :=
    ["Parcel created", "Payment Paid", "Rider Assigned", "In transit", "Delivery Completed"]

  /** `getStatusBadge`: an exact, case-sensitive match on five status texts;
      anything else, including the empty text, is neutral. */
  function StatusBadge(status: string): (b: BadgeColour)
    ensures b == Neutral <==> status !in KnownStatuses
    ensures b == Success <==> status == "Payment Paid" || status == "Delivery Completed"
    ensures b == Info <==> status == "Parcel created"
    ensures b == Primary <==> status == "Rider Assigned"
    ensures b == Warning <==> status == "In transit"
  {
    match status
    case "Parcel created" => Info
    case "Payment Paid" => Success
    case "Rider Assigned" => Primary
    case "In transit" => Warning
    case "Delivery Completed" => Success
    case _ => Neutral
  }

  /** The match is case-sensitive and exact: another spelling of a known
      status, or no status at all, is neutral. In particular the status the
      rider workflow starts from, "Rider assigned", never gets the primary
      badge that "Rider Assigned" gets. */
  lemma StatusMatchIsCaseSensitive()
    ensures StatusBadge(DeliveryStatus.RiderAssigned) == Neutral
    ensures StatusBadge("Rider Assigned") == Primary
    ensures StatusBadge("parcel created") == Neutral
    ensures StatusBadge("") == Neutral
  {
  }

  /** The input box and the id last submitted with "Track". */
  datatype TrackState = TrackState(trackingId: string, searchId: string)

  datatype TrackEvent = Type(text: string) | ClickTrack

  const Initial: TrackState := TrackState("", "")

  /** Typing changes only the box; "Track" copies the box into the search. */
  function Step(s: TrackState, e: TrackEvent): (r: TrackState)
    ensures e.Type? ==> r.searchId == s.searchId && r.trackingId == e.text
    ensures e.ClickTrack? ==> r.searchId == s.trackingId && r.trackingId == s.trackingId
  {
    match e
    case Type(t) => s.(trackingId := t)
    case ClickTrack => s.(searchId := s.trackingId)
  }

  function Run(s: TrackState, es: seq<TrackEvent>): TrackState
    decreases |es|
  {
    if |es| == 0 then s else Run(Step(s, es[0]), es[1..])
  }

  /** `enabled: !!searchId`: the lookup runs only for a non-empty search id. */
  function LookupEnabled(s: TrackState): (r: bool)
    ensures r <==> |s.searchId| > 0
  {
    s.searchId != ""
  }

  /** Without a click on "Track" nothing is looked up, whatever is typed. */
  lemma {:induction false} TypingAloneNeverLooksUp(s: TrackState, es: seq<TrackEvent>)
    requires forall i :: 0 <= i < |es| ==> es[i].Type?
    ensures Run(s, es).searchId == s.searchId
    decreases |es|
  {
    if |es| > 0 {
      TypingAloneNeverLooksUp(Step(s, es[0]), es[1..]);
    }
  }

  /** From the initial screen, the lookup starts only after a click on
      "Track" with something in the box. */
  lemma NoLookupBeforeTrack(es: seq<TrackEvent>)
    requires forall i :: 0 <= i < |es| ==> es[i].Type?
    ensures !LookupEnabled(Run(Initial, es))
    ensures LookupEnabled(Step(Run(Initial, es), ClickTrack)) <==> Run(Initial, es).trackingId != ""
  {
    TypingAloneNeverLooksUp(Initial, es);
  }
}

=== FILE: tracking_id.dfy ===
/** Tracking identifiers `MPX-YYYYMMDD-XXXXXX`, built from the UTC date of the
    booking and a pseudo-random base-36 string. The clock and the random
    source are parameters. */
module TrackingIds {
  import opened Text

  /** A UTC instant, as `Date.prototype.toISOString` renders it. */
  datatype UtcDateTime = UtcDateTime(year: nat, month: nat, day: nat,
                                     hour: nat, minute: nat, second: nat, millisecond: nat)

  /** Instants with a four-digit year and fields in range. */
  predicate ValidDateTime(t: UtcDateTime) {
    && t.year <= 9999 && 1 <= t.month <= 12 && 1 <= t.day <= 31
    && t.hour < 24 && t.minute < 60 && t.second < 60 && t.millisecond < 1000
  }

  function DigitChar(n: nat): (c: char)
    requires n < 10
    ensures IsAsciiDigit(c)
  {
    (('0' as int) + n) as char
  }

  function Pow10(k: nat): (r: nat)
    ensures r >= 1
  {
    if k == 0 then 1 else 10 * Pow10(k - 1)
  }

  /** The value of one decimal digit. */
  function DigitValue(c: char): (v: nat)
    requires IsAsciiDigit(c)
    ensures v < 10
  {
    (c as int) - ('0' as int)
  }

  /** The number a string of decimal digits denotes, most significant first. */
  function OfDigits(s: string): nat
    requires forall i :: 0 <= i < |s| ==> IsAsciiDigit(s[i])
  {
    if |s| == 0 then 0 else 10 * OfDigits(s[..|s| - 1]) + DigitValue(s[|s| - 1])
  }

  /** `n` written with exactly `width` decimal digits, leading zeros included:
      `String(n).padStart(width, "0")` for a value that fits, so reading the
      digits back gives `n`. */
  function PadDigits(n: nat, width: nat): (r: string)
    ensures |r| == width
    ensures forall i :: 0 <= i < |r| ==> IsAsciiDigit(r[i])
    ensures n < Pow10(width) ==> OfDigits(r) == n
  {
    if width == 0 then ""
    else
      var high := PadDigits(n / 10, width - 1);
      var r := high + [DigitChar(n % 10)];
      assert r[..|r| - 1] == high;
      r
  }

  /** Values below `10^width` have distinct `width`-digit renderings. */
  lemma PadDigitsInjective(a: nat, b: nat, width: nat)
    requires a < Pow10(width) && b < Pow10(width)
    ensures PadDigits(a, width) == PadDigits(b, width) <==> a == b
  {
  }

  /** `toISOString()`: `YYYY-MM-DDTHH:mm:ss.sssZ`. */
  function IsoString(t: UtcDateTime): (r: string)
    requires ValidDateTime(t)
    ensures |r| == 24
  {
    PadDigits(t.year, 4) + "-" + PadDigits(t.month, 2) + "-" + PadDigits(t.day, 2)
    + "T" + PadDigits(t.hour, 2) + ":" + PadDigits(t.minute, 2) + ":" + PadDigits(t.second, 2)
    + "." + PadDigits(t.millisecond, 3) + "Z"
  }

  /** The eight digits `YYYYMMDD` of the UTC calendar date. */
  function DateDigits(t: UtcDateTime): (r: string)
    ensures |r| == 8
    ensures forall i :: 0 <= i < |r| ==> IsAsciiDigit(r[i])
  {
    PadDigits(t.year, 4) + PadDigits(t.month, 2) + PadDigits(t.day, 2)
  }

  /** `s.replace(/-/g, "")`. */
  function RemoveDashes(s: string): (r: string)
    ensures forall i :: 0 <= i < |r| ==> r[i] != '-'
  {
    if |s| == 0 then "" else (if s[0] == '-' then "" else [s[0]]) + RemoveDashes(s[1..])
  }

  lemma {:induction false} RemoveDashesAppend(a: string, b: string)
    ensures RemoveDashes(a + b) == RemoveDashes(a) + RemoveDashes(b)
    decreases |a|
  {
    if |a| == 0 {
      assert a + b == b;
    } else {
      assert (a + b)[0] == a[0];
      assert (a + b)[1..] == a[1..] + b;
      RemoveDashesAppend(a[1..], b);
    }
  }

  lemma {:induction false} RemoveDashesOfDigits(s: string)
    requires forall i :: 0 <= i < |s| ==> IsAsciiDigit(s[i])
    ensures RemoveDashes(s) == s
    decreases |s|
  {
    if |s| > 0 {
      RemoveDashesOfDigits(s[1..]);
    }
  }

  /** `s.substring(start, end)` for `start <= end`: indices beyond the end of
      the string are clamped to its length. */
  function Substring(s: string, start: nat, end: nat): (r: string)
    requires start <= end
    ensures |r| <= end - start
    ensures start <= |s| ==> r == s[start..if end <= |s| then end else |s|]
    ensures start > |s| ==> r == ""
  {
    var a := if start <= |s| then start else |s|;
    var b := if end <= |s| then end else |s|;
    s[a..b]
  }

  /** What `Math.random().toString(36)` can produce: `"0"` for zero, otherwise
      `"0."` followed by base-36 digits. */
  predicate IsRandomBase36(s: string) {
    || s == "0"
    || (|s| >= 2 && s[0] == '0' && s[1] == '.' && forall i :: 2 <= i < |s| ==> IsBase36Lower(s[i]))
  }

  const Prefix: string := "MPX"

  /** `MPX-` + `YYYYMMDD` + `-` + at most six characters of `[0-9A-Z]`. */
  predicate IsTrackingId(s: string) {
    && 13 <= |s| <= 19
    && s[..4] == "MPX-"
    && (forall i :: 4 <= i < 12 ==> IsAsciiDigit(s[i]))
    && s[12] == '-'
    && (forall i :: 13 <= i < |s| ==> IsBase36Upper(s[i]))
  }

  /** The date segment of a tracking identifier. */
  function DateSegment(id: string): string
    requires IsTrackingId(id)
  {
    id[4..12]
  }

  /** The random segment of a tracking identifier. */
  function RandomSegment(id: string): string
    requires IsTrackingId(id)
  {
    id[13..]
  }

  /** `generateTrackingId`, with the clock reading and the random string passed in. */
  function GenerateTrackingId(now: UtcDateTime, random: string): (id: string)
    requires ValidDateTime(now)
    requires IsRandomBase36(random)
    ensures IsTrackingId(id)
    ensures DateSegment(id) == DateDigits(now)
    ensures RandomSegment(id) == Upper(Substring(random, 2, 8))
  {
    var iso := IsoString(now);
    var datePart := RemoveDashes(iso[..10]);
    var randomPart := Upper(Substring(random, 2, 8));
    DatePartIsDateDigits(now);
    assert forall i :: 0 <= i < |randomPart| ==> IsBase36Upper(randomPart[i]) by {
      forall i | 0 <= i < |randomPart| ensures IsBase36Upper(randomPart[i]) {
        assert randomPart[i] == UpperChar(random[2 + i]);
      }
    }
    var id := Prefix + "-" + datePart + "-" + randomPart;
    assert id[..4] == "MPX-";
    assert id[4..12] == datePart;
    assert id[13..] == randomPart;
    id
  }

  /** The date segment is the UTC date: `toISOString().slice(0, 10)` without
      its dashes is exactly `YYYYMMDD`. */
  lemma DatePartIsDateDigits(t: UtcDateTime)
    requires ValidDateTime(t)
    ensures RemoveDashes(IsoString(t)[..10]) == DateDigits(t)
  {
    var y := PadDigits(t.year, 4);
    var m := PadDigits(t.month, 2);
    var d := PadDigits(t.day, 2);
    assert IsoString(t)[..10] == y + "-" + m + "-" + d;
    RemoveDashesAppend(y + "-" + m + "-", d);
    RemoveDashesAppend(y + "-" + m, "-");
    RemoveDashesAppend(y + "-", m);
    RemoveDashesAppend(y, "-");
    RemoveDashesOfDigits(y);
    RemoveDashesOfDigits(m);
    RemoveDashesOfDigits(d);
  }

  /** `YYYYMMDD` names the calendar date: two valid instants have the same
      eight digits exactly when they fall on the same UTC day. */
  lemma DateDigitsInjective(t1: UtcDateTime, t2: UtcDateTime)
    requires ValidDateTime(t1) && ValidDateTime(t2)
    ensures DateDigits(t1) == DateDigits(t2) <==>
              t1.year == t2.year && t1.month == t2.month && t1.day == t2.day
  {
    var d1, d2 := DateDigits(t1), DateDigits(t2);
    if d1 == d2 {
      assert Pow10(4) == 10000 && Pow10(2) == 100;
      assert PadDigits(t1.year, 4) == d1[..4] == d2[..4] == PadDigits(t2.year, 4);
      assert PadDigits(t1.month, 2) == d1[4..6] == d2[4..6] == PadDigits(t2.month, 2);
      assert PadDigits(t1.day, 2) == d1[6..] == d2[6..] == PadDigits(t2.day, 2);
      PadDigitsInjective(t1.year, t2.year, 4);
      PadDigitsInjective(t1.month, t2.month, 2);
      PadDigitsInjective(t1.day, t2.day, 2);
    }
  }

  /** Identifiers generated on different UTC dates never coincide, whatever
      the random strings. */
  lemma DifferentDatesDifferentIds(t1: UtcDateTime, t2: UtcDateTime, r1: string, r2: string)
    requires ValidDateTime(t1) && ValidDateTime(t2)
    requires IsRandomBase36(r1) && IsRandomBase36(r2)
    requires (t1.year, t1.month, t1.day) != (t2.year, t2.month, t2.day)
    ensures GenerateTrackingId(t1, r1) != GenerateTrackingId(t2, r2)
  {
    DateDigitsInjective(t1, t2);
  }

  /** When the random source returns exactly zero, the random segment is empty;
      a short base-36 expansion likewise yields fewer than six characters. */
  lemma ShortRandomSegment(now: UtcDateTime)
    requires ValidDateTime(now)
    ensures RandomSegment(GenerateTrackingId(now, "0")) == ""
    ensures RandomSegment(GenerateTrackingId(now, "0.i")) == "I"
  {
    assert Substring("0.i", 2, 8) == "i";
    assert Upper("i") == [UpperChar('i')];
  }
}

=== FILE: user_role.dfy ===
/** The signed-in user's role as the dashboard sees it, and whether it is
    still being fetched. */
module UserRole {
  import opened Optional

  const DefaultRole: string := "user"

  /** The role endpoint's answer: absent before it resolves, and its `role`
      field absent when the server omits it. */
  datatype RoleData = RoleData(role: Option<string>)

  /** `data?.role || "user"`: the server's role when present and non-empty. */
  function ResolveRole(data: Option<RoleData>): (r: string)
    ensures r != ""
    ensures (data.Some? && data.value.role.Some? && data.value.role.value != "") ==> r == data.value.role.value
    ensures !(data.Some? && data.value.role.Some? && data.value.role.value != "") ==> r == DefaultRole
  {
    if data.Some? && data.value.role.Some? && data.value.role.value != "" then data.value.role.value
    else DefaultRole
  }

  /** Without a role from the server nobody is treated as a rider or an admin. */
  lemma MissingRoleIsPlainUser(data: Option<RoleData>)
    requires data.None? || data.value.role.None? || data.value.role.value == ""
    ensures ResolveRole(data) != "rider" && ResolveRole(data) != "admin"
  {
  }

  /** `enabled: !!user?.email && !loading`: the role is only fetched for a
      signed-in user with an email, once authentication has settled. */
  function RoleQueryEnabled(email: Option<string>, authLoading: bool): (r: bool)
    ensures r <==> email.Some? && email.value != "" && !authLoading
  {
    email.Some? && email.value != "" && !authLoading
  }

  /** The role query's progress for the current key. A disabled query stays
      `Idle`, with no data and not loading; an enabled one is fetching, has
      the server's answer, or has failed. */
  datatype RoleQuery = Idle | Fetching | Answered(answer: RoleData) | Failed

  /** The query's `data`. */
  function QueryData(q: RoleQuery): Option<RoleData> {
    if q.Answered? then Some(q.answer) else None
  }

  /** The query's `isLoading`: fetching with nothing to show yet. */
  predicate QueryIsLoading(q: RoleQuery) {
    q.Fetching?
  }

  /** The query leaves `Idle` exactly when it is enabled. */
  predicate ConsistentQuery(q: RoleQuery, email: Option<string>, authLoading: bool) {
    q.Idle? <==> !RoleQueryEnabled(email, authLoading)
  }

  /** What the hook returns. */
  datatype RoleView = RoleView(role: string, roleLoading: bool)

  /** `useUserRole`: the role from the query's answer, and the loading flag
      combining authentication and the query. */
  function UseUserRole(email: Option<string>, authLoading: bool, q: RoleQuery): (v: RoleView)
    ensures q.Answered? && q.answer.role.Some? && q.answer.role.value != "" ==> v.role == q.answer.role.value
    ensures !q.Answered? ==> v.role == DefaultRole
    ensures v.roleLoading <==> authLoading || q.Fetching?
  {
    RoleView(ResolveRole(QueryData(q)), RoleLoading(authLoading, QueryIsLoading(q)))
  }

  /** While the query is disabled (signed out, no email, or authentication
      still settling) the hook reports the plain "user" role, and it is
      loading exactly while authentication is. */
  lemma DisabledQueryGivesPlainUser(email: Option<string>, authLoading: bool, q: RoleQuery)
    requires ConsistentQuery(q, email, authLoading)
    ensures !RoleQueryEnabled(email, authLoading) ==> UseUserRole(email, authLoading, q) == RoleView(DefaultRole, authLoading)
    ensures email.None? || email == Some("") || authLoading ==> UseUserRole(email, authLoading, q).role == DefaultRole
  {
  }

  /** `roleLoading`: loading while authentication or the role query is. */
  function RoleLoading(authLoading: bool, queryLoading: bool): (r: bool)
    ensures authLoading ==> r
    ensures queryLoading ==> r
    ensures !r ==> !authLoading && !queryLoading
  {
    authLoading || queryLoading
  }
}
